=== FILE: README.md ===
# cryo_fts scan control, modelled in Dafny

This project models the scan-control layer of the `cryo_fts` interferometer
software: the layer above the motor, encoder and laser drivers that calibrates
the encoder, starts and stops continuous scans, runs the per-tick sampling
loop and writes the collected records out, plus the scan-planning formulas.

- **Calibration** (`calibration.dfy`): the encoder resolution of 0.244140625 µm
  per count, held exactly as 125/512000 mm, and the position
  `(count - OFFSET) * RESOLUTION` with its inverse.
- **Termination** (`termination.dfy`): the end-of-track and stationary-carriage
  rules stated as a decision on the whole history of positions. This is the
  reference the loop is proved against.
- **Records** (`records.dfy`): one tick's record, and the two ways records are
  written. The worker writes an incremental CSV row by row; stopping the scan
  writes the finished dataset.
- **ScanLoop** (`scan_loop.dfy`): the laser controller's `_scan_worker` as a pure
  fold over per-tick observations. Each observation holds the stop flag, the
  encoder's latest `(timestamp, count)` sample if there is one, and the
  laser/lock-in reading. The fold produces the stored records, the file rows
  and the stop cause. `Worker` adds the set-up commands, the header and the
  teardown.
- **TopticaController** (`toptica_controller.dfy`): the laser controller's
  lifecycle as an immutable state: calibration, `scan_and_collect`, the
  worker's ticks, `stop_scan` and `close`. There is also a controller invariant
  that every operation preserves.
- **MirrorController** (`mirror_controller.dfy`): the mirror controller, with
  the same calibration and single-flight guard, a worker that hands raw
  samples to a callback, and a stop that only raises the flag.
- **ScanPlanning** (`scan_planning.dfy`): the Nyquist, fringe-frequency, OPD
  resolution, mirror-velocity and scan-time formulas over `real`. Units are
  fixed: mm, s, Hz.

Threads become explicit steps:
- Starting a scan also performs the worker's set-up and opens its file.
- `WorkerTick` is one loop iteration.
- Joining the laser worker after `stop_scan` sets the flag is that worker's
  next loop head. That loop head sees the flag.

Both controllers carry their own `find_offset` and `get_position`, as the two
source classes do. The two models of them are kept apart on purpose, and both
rest on the shared `Calibration` module.

The hardware is a trace of commands (`Devices.DeviceCall`) plus the readings
each tick observes. The caller supplies those readings as inputs.

Points of the code's behaviour that the model keeps:
- The tick that triggers end-of-track or the stationary stop `break`s before
  its record is built (src/laser_old.py:142-153), so it stores and writes
  nothing.
- The first position never counts as a step, so a stationary stop needs five
  short steps between six positions. Five positions within 0.001 mm of each
  other do not stop the scan (`Termination.StationaryExample`).
- The incremental file prints an absent timestamp or position as the text
  `None`, not as an empty field (src/laser_old.py:170).
- `stop_scan` overwrites the incremental file at the same path with the
  finished dataset (src/laser_old.py:103-105). That dataset leaves absent
  values blank, and its frequency column is named `freq_ghz` instead of
  `frequency_ghz`.
- The code has no nearest-timestamp join, no stream-reader backlog and no
  reader-health state. Each tick reads the encoder's latest sample and queries
  the laser directly, so none of those are modelled.

## Model

| member | source | states |
|---|---|---|
| Calibration.PositionRoundTrip | src/laser_old.py:139 | The position is zero exactly at the calibration count and positive exactly above it. `CountAt` recovers the count from the position. |
| Calibration.PositionDifference | src/laser_old.py:40-43 | The difference of two positions is the count difference times the resolution, whatever the offset. |
| Calibration.PositionMonotonic | src/mirror.py:29-32 | The position strictly increases with the count, in both directions of the iff. |
| Calibration.PositionExample | src/laser_old.py:11 | With offset 1000, count 1500 is 0.1220703125 mm. |
| Termination.CloseStepsIsTrailingRun | src/laser_old.py:145-152 | The stationary count of a history is exactly its maximal run of trailing steps shorter than 0.001 mm: each of those steps is short and the step before them is not. |
| Termination.Decide | src/laser_old.py:142-150 | The stop rule on a position history: end-of-track on the newest position first, then five trailing short steps. `CloseStepsIsTrailingRun`, `StationaryNeedsSixPositions` and the two examples describe it, and the `ScanLoop` lemmas tie the loop to it. |
| Termination.StationaryNeedsSixPositions | src/laser_old.py:145-150 | A stationary decision needs at least six positions. |
| Termination.StationaryExample | src/laser_old.py:145-150 | Five positions with all steps under 0.001 mm continue. A sixth short step stops. |
| Termination.EndOfTrackExample | src/laser_old.py:142-143 | On a 50 mm axis, 49.0 mm is end-of-track and 48.9 mm is not. |
| Records.IncrementalRow | src/laser_old.py:170 | Reading the written row back gives the record. The row has one cell per header column. |
| Records.DatasetRow | src/laser_old.py:103-105 | Reading the dataset row back gives the record. The row has one cell per dataset column. |
| Records.DatasetFile | src/laser_old.py:103-105 | The dataset is its header followed by exactly one row per stored record, in order. |
| Records.IncrementalFileAppend | src/laser_old.py:169-171 | Storing one more record appends exactly its row to the file. |
| Records.IncrementalRowsRoundTrip | src/laser_old.py:164-171 | Parsing the incremental file's rows returns the stored records, in order. |
| Records.DatasetRoundTrip | src/laser_old.py:103-105 | Parsing the dataset's rows returns the stored records, in order. |
| ScanLoop.Step | src/laser_old.py:130-171 | One iteration halts as cancelled exactly when the flag was set. It raises as uncalibrated exactly when an unflagged tick brings a sample before calibration. A device fault only happens on an unflagged tick whose lock-in read failed. A position at or beyond 98% of the axis maximum halts at end-of-track. A tick without a sample stores a record with no timestamp or position and leaves the carried state unchanged. A completed tick's record depends only on its own observation. The counter stays below 5. |
| ScanLoop.Run | src/laser_old.py:130-171 | The loop over a run of observations. `RunRecordsTicks`, `RunLength`, `RunHaltsAt`, `RunStateIsSummary` and `RunStopsWhenPolicyStops` state what it stores, writes, carries and why it stops. |
| ScanLoop.RunRecordsTicks | src/laser_old.py:130-171 | Each completed tick stores exactly its own record and writes exactly that record's row. The loop stops at the first tick that does not complete. It ends cancelled exactly when that tick saw the flag. |
| ScanLoop.RunLength | src/laser_old.py:130-171 | The loop completes at most one tick per observation and writes one row per record. It has not ended exactly when every observation completed. |
| ScanLoop.RunHaltsAt | src/laser_old.py:130-153 | An ended loop ended on the tick right after its completed ones, from the state those ticks left. |
| ScanLoop.SampleFreeTicksThenFault | src/laser_old.py:132-171 | Ticks with no encoder sample but a good reading are each stored and leave `last_pos` and the counter alone. A failing read after them ends the loop with a device fault. |
| ScanLoop.RunKeepsCounterBelowThreshold | src/laser_old.py:145-152 | Between ticks the stationary counter stays below 5. |
| ScanLoop.RunIgnoresTicksAfterStop | src/laser_old.py:130 | After the loop ends, further observations change nothing. |
| ScanLoop.RunSnoc | src/laser_old.py:130-172 | One more tick on a running loop is one more step, appending at most one record and one row. |
| ScanLoop.StepAgreesWithPolicy | src/laser_old.py:139-162 | On a sampled tick, the iteration stops at end-of-track or for stationarity exactly when the history-based policy does. When the policy continues, a failed lock-in read is a device fault and a good one completes the tick, leaving the summary of the extended history. |
| ScanLoop.RunStateIsSummary | src/laser_old.py:122-153 | The carried `last_pos` and counter are the last position and the trailing short-step count of the positions reported so far. Ticks without a sample neither reset nor advance them. |
| ScanLoop.RunPrefixStillRunning | src/laser_old.py:130-171 | On every prefix of the completed ticks the loop is still running. |
| ScanLoop.RunContinuesOnlyWhenPolicyContinues | src/laser_old.py:142-153 | Every sampled tick the loop completes is one the policy, given the history through that tick, lets continue. |
| ScanLoop.RunEndsFromSummary | src/laser_old.py:122-153 | An ended fresh loop ended on the tick after its completed ones, from the summary of the positions those ticks reported, with the counter below 5. |
| ScanLoop.RunStopsWhenPolicyStops | src/laser_old.py:142-150 | An end-of-track or stationary stop happens on a sampled tick where the policy gives the same decision. |
| ScanLoop.StationaryStopNeedsSixSamples | src/laser_old.py:122-153 | A stationary stop needs at least six sampled ticks. |
| ScanLoop.Worker | src/laser_old.py:108-175 | The whole `_scan_worker`: set-up commands, the header, the loop with one lock-in reset per iteration that reaches the lock-in, and the teardown on every way out. `WorkerGuarantees` and `CrashAfterSevenRecords` state what it leaves. |
| ScanLoop.DefaultRequest | src/laser_old.py:84 | The keyword defaults of `scan_and_collect`: no velocity unit, sample rate 10, lock-in 5000 Hz, 100 ms and gain 1e6. `TopticaController.DefaultStartSetsUpLockin` states the set-up they produce. |
| ScanLoop.WorkerGuarantees | src/laser_old.py:108-175 | On every exit path the file is the header plus exactly one row per stored record, in order. The motor stop and then the transmission stop are each issued exactly once, as the last two commands. A loop that has not ended has issued neither. |
| ScanLoop.CrashAfterSevenRecords | src/laser_old.py:157-175 | Seven completed ticks followed by a failing lock-in read leave seven records, a header and seven rows. The commands are the set-up, eight lock-in resets and one teardown. |
| TopticaController.FindOffset | src/laser_old.py:35-38 | Calibrating moves to absolute 0 and then reads the count. That count becomes the offset, so the position there is 0. The scan state, store, files and axis maximum are unchanged. |
| TopticaController.Init | src/laser_old.py:26-33 | Init connects the laser, then the encoder, then the motor, then calibrates, and returns true. The scan state, store and files are unchanged. |
| TopticaController.GetPosition | src/laser_old.py:40-43 | Before calibration this fails. After it, the position divided by the resolution is exactly the count minus the offset, so it maps back to the count read and is zero exactly at the offset. |
| TopticaController.GetPositionLinear | src/laser_old.py:40-43 | Two calibrated positions differ by the count difference times the resolution. |
| TopticaController.DefaultPath | src/laser_old.py:90-92 | The default file name is the fixed directory prefix, the time stamp and `.csv`. |
| TopticaController.DefaultPathInjective | src/laser_old.py:90-92 | Different time stamps give different default names. |
| TopticaController.ScanAndCollect | src/laser_old.py:84-96 | While the worker is alive this raises. Otherwise it clears the flag, empties the store and uses the given path or the default one. It also issues the set-up commands and truncates that file to its header, leaving every other file, the offset and the axis maximum alone. |
| TopticaController.DefaultStartSetsUpLockin | src/laser_old.py:84-119 | A start with every keyword left at its default issues the frequency set, `setup_lockin(5000, 100, 1e6, 0)`, the transmission start and a velocity move with no unit, and it samples at 10 per second. |
| TopticaController.WorkerTick | src/laser_old.py:130-175 | A tick on a running worker stores at most one record and keeps the earlier ones. It stores nothing exactly when the worker exits, and a set flag makes it exit cancelled. On exit the files are untouched, and the commands are the motor stop and then the transmission stop, preceded by the lock-in reset when the lock-in read failed. A completed tick issues exactly one lock-in reset and appends exactly the new record's row to the scan's file. The offset, axis maximum and file name never change. |
| TopticaController.WorkerExitKeepsFile | src/laser_old.py:126-175 | From a valid running controller, an exiting worker leaves the scan's file as the header plus one row per stored record, and its last two commands are the motor stop and then the transmission stop. |
| TopticaController.StopScan | src/laser_old.py:98-106 | Stopping always sets the flag and joins the worker. A running worker exits cancelled and issues the teardown. Without one, the phase and the command trace are unchanged. It writes the dataset to the scan's file only when the store is non-empty, and touches no file otherwise. The offset, file name and axis maximum are kept. |
| TopticaController.Close | src/laser_old.py:45-49 | Close performs `stop_scan`: it sets the flag, a running worker exits cancelled, and the files are what the stop leaves, including the dataset write. It then closes the encoder, the motor and the laser, in that order. The offset, file name and axis maximum are kept. |
| TopticaController.ApplyPreservesValid | src/laser_old.py:84-175 | Every operation keeps the invariant. A running scan's file is the header plus the store's rows. A non-empty store has a file name. Every scan start is torn down exactly once, except the one scan that may be running. |
| TopticaController.ReachableIsValid | src/laser_old.py:84-175 | The invariant holds after any sequence of operations. |
| TopticaController.NewIsValid | src/laser_old.py:14-24 | A new controller satisfies the invariant. |
| TopticaController.New | src/laser_old.py:14-24 | A fresh controller: uncalibrated, no worker, clear flag, empty store, no file name and no commands. `NewIsValid` shows it satisfies the invariant. |
| TopticaController.StopScanIdempotent | src/laser_old.py:98-106 | Stopping twice leaves the same state as stopping once. |
| TopticaController.RestartAfterStop | src/laser_old.py:86-102 | Because stop joins the worker, a scan started right after a stop is accepted and starts with an empty store. |
| TopticaController.DriveFollowsRun | src/laser_old.py:130-171 | Ticking the controller stores exactly the pure loop's records and ends with the loop's state or stop cause. |
| MirrorController.FindOffset | src/mirror.py:24-27 | Calibrating moves to absolute 0 and then reads the count. That count becomes the offset, so the position there is 0. The worker's phase, the stop flag and the delivered samples are unchanged. |
| MirrorController.Init | src/mirror.py:17-22 | Init initialises the encoder, then the motor, then calibrates, and returns true. The scan state is unchanged. |
| MirrorController.GetPosition | src/mirror.py:29-32 | Before calibration this fails. After it, it returns a position that maps back to the count and is zero exactly at the offset. |
| MirrorController.GetPositionLinear | src/mirror.py:29-32 | Positions are linear in the count. |
| MirrorController.ScanAndCollect | src/mirror.py:52-57 | While the worker is alive this raises. Otherwise it clears the flag before the worker starts transmission and the velocity move. |
| MirrorController.StopScan | src/mirror.py:59-60 | Stopping sets the flag and changes nothing else: no join and no write. |
| MirrorController.Close | src/mirror.py:34-36 | Close closes the encoder and the motor and leaves a running worker running. The offset and the delivered samples are kept. |
| MirrorController.WorkerTick | src/mirror.py:62-75 | A set flag makes the worker exit and issue the motor stop and then the transmission stop. Otherwise a present sample is handed, raw, to the callback, and an absent sample hands over nothing. The offset never changes. |
| MirrorController.LoopDeliversPresentSamples | src/mirror.py:62-72 | The callback receives exactly the raw samples present before the flag is first seen, in order. The loop exits exactly when some tick saw the flag. |
| MirrorController.Loop | src/mirror.py:67-72 | The mirror loop over a run of observations. `LoopDeliversPresentSamples` and `DriveFollowsLoop` state what it delivers and when it exits. |
| MirrorController.DriveFollowsLoop | src/mirror.py:62-75 | Ticking the controller delivers exactly what the pure loop delivers and exits exactly when the loop does. |
| MirrorController.ApplyPreservesValid | src/mirror.py:52-75 | Every operation keeps every scan start matched by exactly one teardown, except the running scan. |
| MirrorController.ReachableIsValid | src/mirror.py:52-75 | The invariant holds after any sequence of operations. |
| MirrorController.NewIsValid | src/mirror.py:9-15 | A new controller satisfies the invariant. |
| MirrorController.New | src/mirror.py:9-15 | A fresh mirror controller: uncalibrated, no worker, clear flag, nothing delivered and no commands. `NewIsValid` shows it satisfies the invariant. |
| MirrorController.RestartRightAfterStopIsRefused | src/mirror.py:52-60 | Because stop does not join, a scan started before the worker sees the flag is refused. After the worker's next tick it is accepted. |
| ScanPlanning.Nyquist | src/utils.py:5-6 | The fringe frequency of the Nyquist rate is the original frequency. A positive frequency gives a larger positive rate. |
| ScanPlanning.FringeFreq | src/utils.py:16-17 | A positive sampling rate gives a fringe frequency strictly between 0 and the rate. |
| ScanPlanning.NyquistFringeInverse | src/utils.py:5-17 | The Nyquist rate and the fringe frequency are inverse in both directions. |
| ScanPlanning.DeltaOpd | src/utils.py:8-10 | The resolution is defined exactly when the frequency is non-zero. It times the Nyquist rate equals c, and it is positive for a positive frequency. |
| ScanPlanning.MirrorVelocity | src/utils.py:12-14 | The velocity is defined exactly when N is non-zero, and it times 4N equals the frequency times the sampling quantity. Positive inputs give a positive velocity. |
| ScanPlanning.DoublingOversamplingHalvesVelocity | src/utils.py:12-14 | Doubling N halves the velocity. |
| ScanPlanning.ScanTime | src/utils.py:19-21 | The time is defined exactly when the velocity is non-zero, and it times the velocity equals the track length. Positive inputs give a positive time. |

## Left out

- Device drivers (motor, encoder, lock-in, laser SDK) and device discovery are out of scope. Their commands are entries in a trace, and their readings are inputs.
- The laser wrappers `emission_on`, `emission_off`, `get_frequency`, `get_photocurrent` and `move_absolute`, and the mirror's `move_absolute` and `move_relative`, are left out as operations. They pass straight through to a driver. The worker's `set_frequency`, `setup_lockin` and `reset_lockin` calls appear only as the commands `SetFrequency`, `SetupLockin` and `ResetLockin` in the trace.
- `AXIS_MAX` is read from the motor's settings by `motor.init()` (src/motor.py:34). The model fixes it when the controller is built (`TopticaController.New`), and no operation changes it.
- Threads, events and `time.sleep` become sequential steps, so the sampling period, the five-second settle and the lock-in integration wait are not modelled. Starting a scan performs the worker's set-up atomically, and each tick is atomic.
- Exceptions raised by the worker's set-up commands, by the teardown commands themselves, by `get_latest`, by file writes or by the mirror's callback are not modelled. The model includes two in-loop failures: a sample before calibration, and a failing laser/lock-in query. The `time.sleep` failures are listed below.
- The laser controller's `close` before `init` raises, because the laser connection is still `None`. The model does not model that raise: it lets `Close` issue `LaserClose` anyway.
- src/encoder.py defines no `get_latest`, `start_transmission` or `stop_transmission`. As written, both workers therefore raise `AttributeError` at `start_transmission` (src/laser_old.py:118, src/mirror.py:65), and again at `stop_transmission` inside `finally` (src/laser_old.py:175, src/mirror.py:75). The model assumes an encoder that provides these three calls: `Tick.latest` and the `StartTransmission` and `StopTransmission` commands stand for them.
- `time.sleep` raises `ValueError` for a negative argument, and this is not modelled. A negative `lockin_int_time_ms` makes the worker raise at src/laser_old.py:160, before that tick's record. A negative `sample_rate` makes it raise at src/laser_old.py:172, after that tick's record and row are written. A zero `sample_rate` raises `ZeroDivisionError` at src/laser_old.py:120, before the file is opened. `ScanRequest.sampleRate` is carried (default 10) but only sets the sleep period, so the model does not use it.
- Device initialisation is not tracked. The motor's `move_absolute` raises `RuntimeError('Axis not initialized.')` before `motor.init()` and after `motor.close()` (src/motor.py:45, 53-54, 63-65). So `find_offset` (src/laser_old.py:36, src/mirror.py:25) raises before `init` and after `close`. Likewise `get_position` after `close` reads from a closed serial port (src/encoder.py:42-44, 48, 58-59). The model has no initialised-device state, so `FindOffset` and `GetPosition` succeed in either controller whether or not `Init` has run and after `Close`.
- Floating-point rounding is idealised. Positions, the 0.98 end-of-track factor and the 0.001 mm step threshold use exact `real` arithmetic.
- Text rendering of numbers (`str` of a float, pandas float formatting) is not modelled. A file is a header plus rows of number, `None`-text or blank cells.
- The clock and `strftime` formatting behind the default file name are not modelled. The formatted time stamp is an input.
- Unit conversion is left out. Lengths are fixed to mm, velocities to mm/s and frequencies to Hz, and the speed of light is a constant in mm/s.
- ScanPlanning.DeltaOpd: a division by zero, which gives infinity or NaN for unit-carrying quantities, is modelled as `None` rather than as a non-finite float.
- ScanPlanning.MirrorVelocity: a zero oversampling factor is modelled as `None` in the same way.
- ScanPlanning.ScanTime: a zero velocity is modelled as `None` in the same way.

=== FILE: calibration.dfy ===
/**
 Calibration of the encoder: the raw count recorded at the physical zero
 (`OFFSET`) and the fixed distance one count stands for (`RESOLUTION`).
 Both controllers compute a position as `(count - OFFSET) * RESOLUTION`.
 */
module Calibration {

  /** One encoder count is 0.244140625 micrometres, written here in millimetres
      (the motor's default length unit): 0.000244140625 mm = 125/512000 mm. */
  const Resolution: real := 125.0 / 512000.0

  /** The position, in millimetres, that a raw count stands for once `offset`
      is the count read at the physical zero. */
  function Position(count: int, offset: int): real
  {
    (count - offset) as real * Resolution
  }

  /** The position is zero exactly at the calibration count, positive exactly
      above it, and the count can be recovered from it. */
  lemma PositionRoundTrip(count: int, offset: int)
    ensures Position(count, offset) == 0.0 <==> count == offset
    ensures Position(count, offset) > 0.0 <==> count > offset
    ensures CountAt(Position(count, offset), offset) == count
  {
    assert Position(count, offset) / Resolution == (count - offset) as real;
  }

  /** The raw count whose position is `p`: the inverse of `Position`, rounding
      down for a position between two counts. */
  function CountAt(p: real, offset: int): int
  {
    offset + (p / Resolution).Floor
  }

  /** Positions are linear in the count: the distance between two readings is
      the count difference times the resolution, whatever the offset. */
  lemma PositionDifference(c1: int, c2: int, offset: int)
    ensures Position(c1, offset) - Position(c2, offset) == (c1 - c2) as real * Resolution
  {
  }

  /** Positions are strictly increasing in the count, so two different counts
      never share a position. */
  lemma PositionMonotonic(c1: int, c2: int, offset: int)
    ensures c1 < c2 <==> Position(c1, offset) < Position(c2, offset)
  {
    PositionDifference(c2, c1, offset);
    assert Position(c2, offset) - Position(c1, offset) > 0.0 <==> c2 - c1 > 0;
  }

  /** A sanity example: offset 1000 and count 1500 are 500 counts apart,
      which is 0.1220703125 mm. */
  lemma PositionExample()
    ensures Position(1500, 1000) == 0.1220703125
  {
  }
}

=== FILE: devices.dfy ===
/**
 The hardware the controllers talk to, reduced to what the scan-control layer
 observes: the commands it issues (recorded in order as a trace) and the
 timestamped samples the encoder streams back.
 */
module Devices {
  import opened Wrappers

  /** One command issued to the encoder, the motor or the laser. */
  datatype DeviceCall =
    | ConnectLaser
    | EncoderInit
    | MotorInit
    | MoveAbsolute(position: real)
    | GetCount
    | SetFrequency(ghz: real)
    | SetupLockin(freqHz: real, intTimeMs: real, gain: real, phaseDeg: real)
    | ResetLockin
    | StartTransmission
    | MoveVelocity(velocity: real, unit: Option<string>)
    | MotorStop
    | StopTransmission
    | EncoderClose
    | MotorClose
    | LaserClose

  /** What a controller raises to its caller: a scan start while the worker
      is alive (`RuntimeError`), or a position query before calibration
      (`OFFSET` is still `None`, so the subtraction raises). */
  datatype ControllerError = AlreadyRunning | NotCalibrated

  /** The latest `(timestamp, count)` pair the encoder stream holds. */
  datatype Sample = Sample(timestamp: real, count: int)

  /** The two calls every scan worker issues on exit, in this order. */
  const Teardown: seq<DeviceCall> := [MotorStop, StopTransmission]

  /** How many times `c` occurs in the trace. */
  function Count(calls: seq<DeviceCall>, c: DeviceCall): (n: nat)
    ensures n <= |calls|
    ensures n == 0 <==> c !in calls
  {
    if |calls| == 0 then 0
    else (if calls[|calls| - 1] == c then 1 else 0) + Count(calls[..|calls| - 1], c)
  }

  /** How many velocity moves (scan starts) the trace holds, whatever the speed. */
  function VelocityMoves(calls: seq<DeviceCall>): (n: nat)
    ensures n <= |calls|
  {
    if |calls| == 0 then 0
    else (if calls[|calls| - 1].MoveVelocity? then 1 else 0) + VelocityMoves(calls[..|calls| - 1])
  }

  /** Counting distributes over concatenation of traces. */
  lemma {:induction false} CountAppend(a: seq<DeviceCall>, b: seq<DeviceCall>, c: DeviceCall)
    ensures Count(a + b, c) == Count(a, c) + Count(b, c)
    ensures VelocityMoves(a + b) == VelocityMoves(a) + VelocityMoves(b)
    decreases |b|
  {
    if |b| == 0 {
      assert a + b == a;
    } else {
      var b' := b[..|b| - 1];
      assert (a + b)[..|a + b| - 1] == a + b';
      CountAppend(a, b', c);
    }
  }

  /** A command that neither starts nor tears down a scan. */
  predicate Neutral(c: DeviceCall)
  {
    !c.MoveVelocity? && c != MotorStop && c != StartTransmission && c != StopTransmission
  }

  /** A run of neutral commands starts and tears down nothing. */
  lemma {:induction false} NeutralCallsCountNothing(extra: seq<DeviceCall>)
    requires forall i | 0 <= i < |extra| :: Neutral(extra[i])
    ensures VelocityMoves(extra) == 0
    ensures Count(extra, MotorStop) == 0 && Count(extra, StartTransmission) == 0 && Count(extra, StopTransmission) == 0
    decreases |extra|
  {
    if |extra| > 0 {
      NeutralCallsCountNothing(extra[..|extra| - 1]);
    }
  }

  /** `n` lock-in resets, one per loop iteration that reaches the lock-in. */
  function Resets(n: nat): (s: seq<DeviceCall>)
    ensures |s| == n
    ensures forall i | 0 <= i < n :: s[i] == ResetLockin
  {
    seq(n, i => ResetLockin)
  }

  /** Appending neutral commands leaves the scan-start and teardown counts alone. */
  lemma AppendNeutral(calls: seq<DeviceCall>, extra: seq<DeviceCall>)
    requires forall i | 0 <= i < |extra| :: Neutral(extra[i])
    ensures VelocityMoves(calls + extra) == VelocityMoves(calls)
    ensures Count(calls + extra, MotorStop) == Count(calls, MotorStop)
    ensures Count(calls + extra, StartTransmission) == Count(calls, StartTransmission)
    ensures Count(calls + extra, StopTransmission) == Count(calls, StopTransmission)
  {
    NeutralCallsCountNothing(extra);
    CountAppend(calls, extra, MotorStop);
    CountAppend(calls, extra, StartTransmission);
    CountAppend(calls, extra, StopTransmission);
  }

  /** Starting transmission and a velocity move adds one scan start of each kind. */
  lemma AppendScanStart(calls: seq<DeviceCall>, velocity: real, unit: Option<string>)
    ensures var s := calls + [StartTransmission, MoveVelocity(velocity, unit)];
      && VelocityMoves(s) == VelocityMoves(calls) + 1
      && Count(s, MotorStop) == Count(calls, MotorStop)
      && Count(s, StartTransmission) == Count(calls, StartTransmission) + 1
      && Count(s, StopTransmission) == Count(calls, StopTransmission)
  {
    var extra := [StartTransmission, MoveVelocity(velocity, unit)];
    CountAppend(calls, extra, MotorStop);
    CountAppend(calls, extra, StartTransmission);
    CountAppend(calls, extra, StopTransmission);
    assert extra[..1] == [StartTransmission];
  }

  /** The teardown adds one motor stop and one transmission stop. */
  lemma AppendTeardown(calls: seq<DeviceCall>)
    ensures var s := calls + Teardown;
      && VelocityMoves(s) == VelocityMoves(calls)
      && Count(s, MotorStop) == Count(calls, MotorStop) + 1
      && Count(s, StartTransmission) == Count(calls, StartTransmission)
      && Count(s, StopTransmission) == Count(calls, StopTransmission) + 1
  {
    CountAppend(calls, Teardown, MotorStop);
    CountAppend(calls, Teardown, StartTransmission);
    CountAppend(calls, Teardown, StopTransmission);
    assert Teardown[..1] == [MotorStop];
  }
}

=== FILE: mirror_controller.dfy ===
/**
 The mirror scan controller: the same calibration and single-flight guard as
 the laser controller, but a simpler worker that forwards each raw
 `(timestamp, count)` sample to a caller-supplied callback, and a stop that
 only raises the flag (no join, nothing persisted). The callback is modelled
 by the sequence of samples it has been handed. Each `scan_and_collect` call
 takes its own callback; `delivered` is the concatenation of what all of
 them received, scan after scan.
 */
module MirrorController {
  import opened Wrappers
  import opened Calibration
  import opened Devices

  /** The worker thread: never started, running, or exited. */
  datatype Phase = Idle | Scanning(velocity: real, unit: Option<string>) | Finished

  datatype Mirror = Mirror(
    offset: Option<int>,
    stopFlag: bool,
    phase: Phase,
    delivered: seq<Sample>,
    calls: seq<DeviceCall>)

  function New(): Mirror
  {
    Mirror(None, false, Idle, [], [])
  }

  /** Moves to the physical zero and records the count read there. */
  function FindOffset(m: Mirror, countAtZero: int): (m': Mirror)
    ensures m'.offset == Some(countAtZero)
    ensures GetPosition(m', countAtZero) == Ok(0.0)
    ensures m'.calls == m.calls + [MoveAbsolute(0.0), GetCount]
    ensures m'.phase == m.phase && m'.stopFlag == m.stopFlag && m'.delivered == m.delivered
  {
    m.(offset := Some(countAtZero), calls := m.calls + [MoveAbsolute(0.0), GetCount])
  }

  /** Initialises the encoder, then the motor, then calibrates; reports success. */
  function Init(m: Mirror, countAtZero: int): (r: (Mirror, bool))
    ensures r.1
    ensures r.0.offset == Some(countAtZero)
    ensures r.0.calls == m.calls + [EncoderInit, MotorInit, MoveAbsolute(0.0), GetCount]
    ensures r.0.phase == m.phase && r.0.stopFlag == m.stopFlag && r.0.delivered == m.delivered
  {
    (FindOffset(m.(calls := m.calls + [EncoderInit, MotorInit]), countAtZero), true)
  }

  /** The position for a count just read; before calibration this raises. */
  function GetPosition(m: Mirror, count: int): (r: Result<real, ControllerError>)
    ensures r.Err? <==> m.offset.None?
    ensures r.Err? ==> r.error == NotCalibrated
    ensures r.Ok? ==> CountAt(r.value, m.offset.value) == count
    ensures r.Ok? ==> (r.value == 0.0 <==> count == m.offset.value)
  {
    match m.offset
    case None => Err(NotCalibrated)
    case Some(off) =>
      PositionRoundTrip(count, off);
      Ok(Position(count, off))
  }

  /** Two calibrated position readings differ by the count difference times
      the resolution. */
  lemma GetPositionLinear(m: Mirror, c1: int, c2: int)
    requires m.offset.Some?
    ensures GetPosition(m, c1).value - GetPosition(m, c2).value == (c1 - c2) as real * Resolution
  {
    PositionDifference(c1, c2, m.offset.value);
  }

  /** Starts a scan: raises while the worker is alive; otherwise clears the
      stop flag before the worker starts transmission and the velocity move. */
  function ScanAndCollect(m: Mirror, velocity: real, unit: Option<string>): (r: Result<Mirror, ControllerError>)
    ensures r.Err? <==> m.phase.Scanning?
    ensures r.Err? ==> r.error == AlreadyRunning
    ensures r.Ok? ==>
      && !r.value.stopFlag
      && r.value.phase == Scanning(velocity, unit)
      && r.value.calls == m.calls + [StartTransmission, MoveVelocity(velocity, unit)]
      && r.value.delivered == m.delivered
      && r.value.offset == m.offset
  {
    if m.phase.Scanning? then Err(AlreadyRunning)
    else Ok(m.(stopFlag := false, phase := Scanning(velocity, unit),
               calls := m.calls + [StartTransmission, MoveVelocity(velocity, unit)]))
  }

  /** Only raises the stop flag: it neither waits for the worker nor writes anything. */
  function StopScan(m: Mirror): (m': Mirror)
    ensures m'.stopFlag
    ensures m'.phase == m.phase && m'.delivered == m.delivered && m'.calls == m.calls && m'.offset == m.offset
  {
    m.(stopFlag := true)
  }

  /** Closes encoder and motor; a running worker is not stopped. */
  function Close(m: Mirror): (m': Mirror)
    ensures m'.phase == m.phase && m'.stopFlag == m.stopFlag
    ensures m'.calls == m.calls + [EncoderClose, MotorClose]
    ensures m'.offset == m.offset && m'.delivered == m.delivered
  {
    m.(calls := m.calls + [EncoderClose, MotorClose])
  }

  /** What one loop iteration does: exit on the stop flag, otherwise hand the
      latest sample, if there is one, to the callback. */
  datatype MirrorStep = Exit | Deliver(sample: Option<Sample>)

  function Iterate(stopSet: bool, latest: Option<Sample>): MirrorStep
  {
    if stopSet then Exit else Deliver(latest)
  }

  /** One iteration of the worker's loop, if the worker is running; on exit
      the motor is stopped and then the encoder transmission. */
  function WorkerTick(m: Mirror, latest: Option<Sample>): (m': Mirror)
    ensures !m.phase.Scanning? ==> m' == m
    ensures m'.offset == m.offset
    ensures m.phase.Scanning? && m.stopFlag ==>
      m'.phase == Finished && m'.calls == m.calls + Teardown && m'.delivered == m.delivered
    ensures m.phase.Scanning? && !m.stopFlag ==>
      m'.phase == m.phase && m'.calls == m.calls
      && m'.delivered == m.delivered + (if latest.Some? then [latest.value] else [])
  {
    if !m.phase.Scanning? then m
    else match Iterate(m.stopFlag, latest)
      case Exit => m.(phase := Finished, calls := m.calls + Teardown)
      case Deliver(None) => m
      case Deliver(Some(s)) => m.(delivered := m.delivered + [s])
  }

  /** One observation of the mirror loop: the flag and the encoder's latest sample. */
  datatype MirrorTick = MirrorTick(stopSet: bool, latest: Option<Sample>)

  /** The worker loop over a run of observations: what the callback received
      and whether the loop exited. */
  function Loop(ticks: seq<MirrorTick>): (seq<Sample>, bool)
    decreases |ticks|
  {
    if |ticks| == 0 then ([], false)
    else match Iterate(ticks[0].stopSet, ticks[0].latest)
      case Exit => ([], true)
      case Deliver(o) =>
        var rest := Loop(ticks[1..]);
        ((if o.Some? then [o.value] else []) + rest.0, rest.1)
  }

  /** The index of the first observation that saw the stop flag, or the
      length if none did. */
  function FirstStop(ticks: seq<MirrorTick>): (k: nat)
    ensures k <= |ticks|
    ensures forall i | 0 <= i < k :: !ticks[i].stopSet
    ensures k < |ticks| ==> ticks[k].stopSet
    decreases |ticks|
  {
    if |ticks| == 0 then 0
    else if ticks[0].stopSet then 0
    else 1 + FirstStop(ticks[1..])
  }

  /** The samples present in a run of observations, in order. */
  function Present(ticks: seq<MirrorTick>): (s: seq<Sample>)
    ensures |s| <= |ticks|
    decreases |ticks|
  {
    if |ticks| == 0 then []
    else (if ticks[0].latest.Some? then [ticks[0].latest.value] else []) + Present(ticks[1..])
  }

  /** The callback receives exactly the raw samples present before the stop
      flag was first seen, in order, one per iteration that had a sample; the
      loop exits exactly when some observation saw the flag. */
  lemma {:induction false} LoopDeliversPresentSamples(ticks: seq<MirrorTick>)
    ensures Loop(ticks).0 == Present(ticks[..FirstStop(ticks)])
    ensures Loop(ticks).1 <==> FirstStop(ticks) < |ticks|
    decreases |ticks|
  {
    if |ticks| == 0 {
    } else if ticks[0].stopSet {
      assert ticks[..0] == [];
    } else {
      LoopDeliversPresentSamples(ticks[1..]);
      var k := FirstStop(ticks);
      assert ticks[..k][0] == ticks[0];
      assert ticks[..k][1..] == ticks[1..][..k - 1];
    }
  }

  /** The worker driven one encoder reading at a time. */
  function Drive(m: Mirror, latests: seq<Option<Sample>>): Mirror
    decreases |latests|
  {
    if |latests| == 0 then m else Drive(WorkerTick(m, latests[0]), latests[1..])
  }

  /** The loop's observations when the stop flag stays as it is. */
  function TicksOf(stopSet: bool, latests: seq<Option<Sample>>): (ts: seq<MirrorTick>)
    ensures |ts| == |latests|
    ensures forall i | 0 <= i < |latests| :: ts[i] == MirrorTick(stopSet, latests[i])
  {
    seq(|latests|, i requires 0 <= i < |latests| => MirrorTick(stopSet, latests[i]))
  }

  lemma {:induction false} DriveStopped(m: Mirror, latests: seq<Option<Sample>>)
    requires !m.phase.Scanning?
    ensures Drive(m, latests) == m
    decreases |latests|
  {
    if |latests| > 0 {
      DriveStopped(WorkerTick(m, latests[0]), latests[1..]);
    }
  }

  /** Driving the controller's worker tick by tick hands the callback exactly
      what the pure loop delivers, and the worker has exited exactly when the
      loop has. */
  lemma {:induction false} DriveFollowsLoop(m: Mirror, latests: seq<Option<Sample>>)
    requires m.phase.Scanning?
    ensures var l := Loop(TicksOf(m.stopFlag, latests));
      var d := Drive(m, latests);
      && d.delivered == m.delivered + l.0
      && (d.phase == Finished <==> l.1)
      && (!l.1 ==> d.phase == m.phase)
    decreases |latests|
  {
    var ticks := TicksOf(m.stopFlag, latests);
    if |latests| > 0 {
      var m1 := WorkerTick(m, latests[0]);
      assert ticks[0] == MirrorTick(m.stopFlag, latests[0]);
      if m.stopFlag {
        DriveStopped(m1, latests[1..]);
      } else {
        assert TicksOf(m1.stopFlag, latests[1..]) == ticks[1..];
        DriveFollowsLoop(m1, latests[1..]);
      }
    }
  }

  /** The controller invariant: every scan start is matched by exactly one
      teardown, except the one scan that may be running now. */
  ghost predicate Valid(m: Mirror)
  {
    && VelocityMoves(m.calls) == Count(m.calls, MotorStop) + (if m.phase.Scanning? then 1 else 0)
    && Count(m.calls, StartTransmission) == Count(m.calls, StopTransmission) + (if m.phase.Scanning? then 1 else 0)
  }

  datatype Op =
    | FindOffsetOp(countAtZero: int)
    | InitOp(count: int)
    | ScanOp(velocity: real, unit: Option<string>)
    | TickOp(latest: Option<Sample>)
    | StopOp
    | CloseOp

  function Apply(m: Mirror, op: Op): Mirror
  {
    match op
    case FindOffsetOp(n) => FindOffset(m, n)
    case InitOp(n) => Init(m, n).0
    case ScanOp(v, u) =>
      (match ScanAndCollect(m, v, u)
       case Ok(m') => m'
       case Err(_) => m)
    case TickOp(o) => WorkerTick(m, o)
    case StopOp => StopScan(m)
    case CloseOp => Close(m)
  }

  function ApplyAll(m: Mirror, ops: seq<Op>): Mirror
    decreases |ops|
  {
    if |ops| == 0 then m else ApplyAll(Apply(m, ops[0]), ops[1..])
  }

  lemma FindOffsetPreservesValid(m: Mirror, n: int)
    requires Valid(m)
    ensures Valid(FindOffset(m, n))
  {
    AppendNeutral(m.calls, [MoveAbsolute(0.0), GetCount]);
  }

  lemma InitPreservesValid(m: Mirror, n: int)
    requires Valid(m)
    ensures Valid(Init(m, n).0)
  {
    var m1 := m.(calls := m.calls + [EncoderInit, MotorInit]);
    AppendNeutral(m.calls, [EncoderInit, MotorInit]);
    assert Valid(m1);
    FindOffsetPreservesValid(m1, n);
  }

  lemma ScanAndCollectPreservesValid(m: Mirror, v: real, u: Option<string>)
    requires Valid(m)
    ensures ScanAndCollect(m, v, u).Ok? ==> Valid(ScanAndCollect(m, v, u).value)
  {
    if !m.phase.Scanning? {
      AppendScanStart(m.calls, v, u);
    }
  }

  lemma WorkerTickPreservesValid(m: Mirror, latest: Option<Sample>)
    requires Valid(m)
    ensures Valid(WorkerTick(m, latest))
  {
    if m.phase.Scanning? && m.stopFlag {
      AppendTeardown(m.calls);
    }
  }

  lemma ClosePreservesValid(m: Mirror)
    requires Valid(m)
    ensures Valid(Close(m))
  {
    AppendNeutral(m.calls, [EncoderClose, MotorClose]);
  }

  /** Every operation keeps the invariant. */
  lemma ApplyPreservesValid(m: Mirror, op: Op)
    requires Valid(m)
    ensures Valid(Apply(m, op))
  {
    match op
    case FindOffsetOp(n) => FindOffsetPreservesValid(m, n);
    case InitOp(n) => InitPreservesValid(m, n);
    case ScanOp(v, u) => ScanAndCollectPreservesValid(m, v, u);
    case TickOp(o) => WorkerTickPreservesValid(m, o);
    case StopOp =>
    case CloseOp => ClosePreservesValid(m);
  }

  lemma {:induction false} ReachableIsValid(m: Mirror, ops: seq<Op>)
    requires Valid(m)
    ensures Valid(ApplyAll(m, ops))
    decreases |ops|
  {
    if |ops| > 0 {
      ApplyPreservesValid(m, ops[0]);
      ReachableIsValid(Apply(m, ops[0]), ops[1..]);
    }
  }

  lemma NewIsValid()
    ensures Valid(New())
  {
  }

  /** Because stopping does not wait for the worker, a scan started right
      after a stop, before the worker has looked at the flag again, is
      refused; once the worker has seen the flag, it is accepted. */
  lemma RestartRightAfterStopIsRefused(m: Mirror, velocity: real, unit: Option<string>, latest: Option<Sample>)
    requires m.phase.Scanning?
    ensures ScanAndCollect(StopScan(m), velocity, unit) == Err(AlreadyRunning)
    ensures ScanAndCollect(WorkerTick(StopScan(m), latest), velocity, unit).Ok?
  {
  }
}

=== FILE: records.dfy ===
/**
 What one scan tick produces and how it is written out. A `Record` is one
 entry of the in-memory store; a `Line` is one line of a CSV file, either a
 header or a row of cells. The same records are rendered two ways: row by row
 into the incremental file while the scan runs (`None` printed as the text
 "None"), and all at once into the finished dataset (`None` left blank, and
 the frequency column named `freq_ghz` after the record's own key).
 */
module Records {
  import opened Wrappers

  /** One tick's record: encoder timestamp and position (absent when the
      encoder had no sample), actual laser frequency and lock-in photocurrent. */
  datatype Record = Record(timestamp: Option<real>, position: Option<real>, frequency: real, photocurrent: real)

  /** One CSV cell: a number, the text "None", or nothing at all. */
  datatype Cell = Number(value: real) | NoneText | Blank

  datatype Line = Header(columns: seq<string>) | Row(cells: seq<Cell>)

  const IncrementalColumns: seq<string> := ["timestamp", "position_mm", "frequency_ghz", "photocurrent_na"]
  const DatasetColumns: seq<string> := ["timestamp", "position_mm", "freq_ghz", "photocurrent_na"]

  /** A present value is printed as a number; an absent one as `absent`. */
  function Field(o: Option<real>, absent: Cell): Cell
  {
    match o
    case Some(v) => Number(v)
    case None => absent
  }

  /** The row the worker appends to the open file for one record. */
  function IncrementalRow(r: Record): (l: Line)
    ensures ParseRow(l) == Some(r)
    ensures l.Row? && |l.cells| == |IncrementalColumns|
  {
    Row([Field(r.timestamp, NoneText), Field(r.position, NoneText), Number(r.frequency), Number(r.photocurrent)])
  }

  /** The row the finished dataset holds for one record. */
  function DatasetRow(r: Record): (l: Line)
    ensures ParseRow(l) == Some(r)
    ensures l.Row? && |l.cells| == |DatasetColumns|
  {
    Row([Field(r.timestamp, Blank), Field(r.position, Blank), Number(r.frequency), Number(r.photocurrent)])
  }

  /** Reads an optional value back: both "None" and a blank cell mean absent. */
  function ParseCell(c: Cell): Option<real>
  {
    match c
    case Number(v) => Some(v)
    case NoneText => None
    case Blank => None
  }

  /** Reads a record back from a four-cell row whose last two cells are numbers. */
  function ParseRow(l: Line): Option<Record>
  {
    if l.Row? && |l.cells| == 4 && l.cells[2].Number? && l.cells[3].Number? then
      Some(Record(ParseCell(l.cells[0]), ParseCell(l.cells[1]), l.cells[2].value, l.cells[3].value))
    else
      None
  }

  /** Reads every row back, failing on the first line that is not a record. */
  function ParseRows(ls: seq<Line>): Option<seq<Record>>
  {
    if |ls| == 0 then Some([])
    else match (ParseRow(ls[0]), ParseRows(ls[1..]))
      case (Some(r), Some(rs)) => Some([r] + rs)
      case _ => None
  }

  /** The rows the worker has appended after the header for these records. */
  function IncrementalRows(rs: seq<Record>): (ls: seq<Line>)
    ensures |ls| == |rs|
    ensures forall i | 0 <= i < |rs| :: ls[i] == IncrementalRow(rs[i])
  {
    seq(|rs|, i requires 0 <= i < |rs| => IncrementalRow(rs[i]))
  }

  /** The incremental file: its header, then one row per record, in order. */
  function IncrementalFile(rs: seq<Record>): seq<Line>
  {
    [Header(IncrementalColumns)] + IncrementalRows(rs)
  }

  /** The finished dataset written from the in-memory store. */
  function DatasetFile(rs: seq<Record>): (ls: seq<Line>)
    ensures |ls| == |rs| + 1 && ls[0] == Header(DatasetColumns)
    ensures forall i | 0 <= i < |rs| :: ls[i + 1] == DatasetRow(rs[i])
  {
    [Header(DatasetColumns)] + seq(|rs|, i requires 0 <= i < |rs| => DatasetRow(rs[i]))
  }

  /** Appending one record appends exactly its row to the file. */
  lemma IncrementalFileAppend(rs: seq<Record>, r: Record)
    ensures IncrementalFile(rs + [r]) == IncrementalFile(rs) + [IncrementalRow(r)]
  {
    assert IncrementalRows(rs + [r]) == IncrementalRows(rs) + [IncrementalRow(r)];
  }

  /** Reading back the rows of an incremental file gives the records that
      were written, in the same order. */
  lemma {:induction false} IncrementalRowsRoundTrip(rs: seq<Record>)
    ensures ParseRows(IncrementalRows(rs)) == Some(rs)
    decreases |rs|
  {
    if |rs| > 0 {
      assert IncrementalRows(rs)[1..] == IncrementalRows(rs[1..]);
      IncrementalRowsRoundTrip(rs[1..]);
      assert [rs[0]] + rs[1..] == rs;
    }
  }

  /** Reading back the rows of the finished dataset gives the store's records. */
  lemma {:induction false} DatasetRoundTrip(rs: seq<Record>)
    ensures ParseRows(DatasetFile(rs)[1..]) == Some(rs)
    decreases |rs|
  {
    if |rs| > 0 {
      assert DatasetFile(rs)[1..][1..] == DatasetFile(rs[1..])[1..];
      DatasetRoundTrip(rs[1..]);
      assert [rs[0]] + rs[1..] == rs;
    }
  }
}

=== FILE: scan_loop.dfy ===
/**
 The continuous-scan worker of the laser controller, as a pure fold over the
 observations its loop makes, one per tick. Each tick sees the stop flag at
 the loop head, the encoder's latest sample (if any) and the laser/lock-in
 reading; it either ends the loop with a cause or appends one record, to the
 in-memory store and, as a row, to the open file. The loop carries only the
 last position and a count of consecutive short steps.
 */
module ScanLoop {
  import opened Wrappers
  import opened Calibration
  import opened Devices
  import opened Termination
  import opened Records

  /** Actual laser frequency and lock-in photocurrent, both opaque here. */
  datatype Reading = Reading(frequency: real, photocurrent: real)

  /** What one loop iteration observes. `lockin == None` means one of the
      laser/lock-in queries of that iteration raised. */
  datatype Tick = Tick(stopSet: bool, latest: Option<Sample>, lockin: Option<Reading>)

  /** An exception inside the loop: a position computed before calibration
      (`OFFSET` is still `None`), or a failing laser/lock-in query. */
  datatype Fault = Uncalibrated | DeviceFault

  datatype StopCause = Cancelled | EndOfTrack | Stationary | Raised(fault: Fault)

  /** The state carried between iterations: `last_pos` and `stationary_count`. */
  datatype LoopState = LoopState(lastPos: Option<real>, stationary: nat)

  datatype StepResult = Halt(cause: StopCause) | Emit(next: LoopState, record: Record)

  /** The calibration offset and the motor's axis maximum, fixed for a scan. */
  datatype LoopConfig = LoopConfig(offset: Option<int>, axisMax: real)

  const Initial: LoopState := LoopState(None, 0)

  /** The loop state that a history of positions should leave behind: its
      last position and its number of trailing short steps. */
  function Summary(h: seq<real>): LoopState
  {
    LoopState(if |h| == 0 then None else Some(h[|h| - 1]), CloseSteps(h))
  }

  /** The record a completed tick should produce, independent of loop state. */
  function ExpectedRecord(cfg: LoopConfig, t: Tick): Record
    requires t.lockin.Some?
  {
    Record(
      if t.latest.Some? then Some(t.latest.value.timestamp) else None,
      if t.latest.Some? && cfg.offset.Some? then Some(Position(t.latest.value.count, cfg.offset.value)) else None,
      t.lockin.value.frequency,
      t.lockin.value.photocurrent)
  }

  /** The lock-in stage of an iteration: read the photocurrent and frequency
      and build the record, or fail. */
  function Collect(next: LoopState, t: Tick, timestamp: Option<real>, position: Option<real>): StepResult
  {
    match t.lockin
    case None => Halt(Raised(DeviceFault))
    case Some(rd) => Emit(next, Record(timestamp, position, rd.frequency, rd.photocurrent))
  }

  /** One loop iteration. */
  function Step(cfg: LoopConfig, st: LoopState, t: Tick): (r: StepResult)
    ensures r == Halt(Cancelled) <==> t.stopSet
    ensures r.Emit? ==> t.lockin.Some? && r.record == ExpectedRecord(cfg, t)
    ensures r.Emit? && st.stationary < StationaryThreshold ==> r.next.stationary < StationaryThreshold
    ensures !t.stopSet && t.latest.None? ==> (r.Emit? <==> t.lockin.Some?) && (r.Emit? ==> r.next == st)
    ensures r == Halt(Raised(Uncalibrated)) <==> !t.stopSet && t.latest.Some? && cfg.offset.None?
    ensures r == Halt(Raised(DeviceFault)) ==> !t.stopSet && t.lockin.None?
    ensures (!t.stopSet && t.latest.Some? && cfg.offset.Some?
             && AtEndOfTrack(Position(t.latest.value.count, cfg.offset.value), cfg.axisMax)) ==> r == Halt(EndOfTrack)
  {
    if t.stopSet then Halt(Cancelled)
    else match t.latest
      case None => Collect(st, t, None, None)
      case Some(s) =>
        match cfg.offset
        case None => Halt(Raised(Uncalibrated))
        case Some(off) =>
          var pos := Position(s.count, off);
          if AtEndOfTrack(pos, cfg.axisMax) then Halt(EndOfTrack)
          else if st.lastPos.Some? && Close(st.lastPos.value, pos) && st.stationary + 1 >= StationaryThreshold then
            Halt(Stationary)
          else
            var count :=
              if st.lastPos.None? then st.stationary
              else if Close(st.lastPos.value, pos) then st.stationary + 1
              else 0;
            Collect(LoopState(Some(pos), count), t, Some(s.timestamp), Some(pos))
  }

  /** The outcome of running the loop over a finite run of ticks: the records
      stored, the rows written after the header, the state after the last
      completed tick, and the cause if the loop has ended. */
  datatype RunResult = RunResult(records: seq<Record>, rows: seq<Line>, state: LoopState, exit: Option<StopCause>)

  function Run(cfg: LoopConfig, st: LoopState, ticks: seq<Tick>): RunResult
    decreases |ticks|
  {
    if |ticks| == 0 then RunResult([], [], st, None)
    else match Step(cfg, st, ticks[0])
      case Halt(c) => RunResult([], [], st, Some(c))
      case Emit(next, rec) =>
        var rest := Run(cfg, next, ticks[1..]);
        RunResult([rec] + rest.records, [IncrementalRow(rec)] + rest.rows, rest.state, rest.exit)
  }

  /** The loop completes at most one tick per observation, and all of them
      unless it has ended; it writes one row per record. */
  lemma {:induction false} RunLength(cfg: LoopConfig, st: LoopState, ticks: seq<Tick>)
    ensures var r := Run(cfg, st, ticks);
      && |r.records| <= |ticks| && |r.rows| == |r.records|
      && (r.exit.None? <==> |r.records| == |ticks|)
    decreases |ticks|
  {
    if |ticks| > 0 && Step(cfg, st, ticks[0]).Emit? {
      RunLength(cfg, Step(cfg, st, ticks[0]).next, ticks[1..]);
    }
  }

  /** An ended loop ended on the tick right after its completed ones, from
      the state it had reached. */
  lemma {:induction false} RunHaltsAt(cfg: LoopConfig, st: LoopState, ticks: seq<Tick>)
    ensures var r := Run(cfg, st, ticks);
      r.exit.Some? ==> |r.records| < |ticks| && Step(cfg, r.state, ticks[|r.records|]) == Halt(r.exit.value)
    decreases |ticks|
  {
    if |ticks| > 0 && Step(cfg, st, ticks[0]).Emit? {
      var next := Step(cfg, st, ticks[0]).next;
      RunHaltsAt(cfg, next, ticks[1..]);
      var rest := Run(cfg, next, ticks[1..]);
      if rest.exit.Some? {
        assert ticks[1..][|rest.records|] == ticks[|rest.records| + 1];
      }
    }
  }

  /** Each completed tick stores exactly one record, the one its own
      observation determines, and writes exactly that record's row; the loop
      ends on the first tick that does not complete, and it ends as cancelled
      exactly when that tick saw the stop flag. */
  lemma RunRecordsTicks(cfg: LoopConfig, st: LoopState, ticks: seq<Tick>)
    ensures var r := Run(cfg, st, ticks);
      && |r.records| <= |ticks|
      && (r.exit.None? <==> |r.records| == |ticks|)
      && (forall i | 0 <= i < |r.records| ::
            !ticks[i].stopSet && ticks[i].lockin.Some? && r.records[i] == ExpectedRecord(cfg, ticks[i]))
      && (r.exit.Some? ==> Step(cfg, r.state, ticks[|r.records|]) == Halt(r.exit.value))
      && (r.exit == Some(Cancelled) <==> |r.records| < |ticks| && ticks[|r.records|].stopSet)
      && r.rows == IncrementalRows(r.records)
  {
    RunLength(cfg, st, ticks);
    RunHaltsAt(cfg, st, ticks);
    RunRecordsMatch(cfg, st, ticks);
    RunRows(cfg, st, ticks);
  }

  /** Record `i` is the record tick `i` determines. */
  lemma {:induction false} RunRecordsMatch(cfg: LoopConfig, st: LoopState, ticks: seq<Tick>)
    ensures var r := Run(cfg, st, ticks);
      && |r.records| <= |ticks|
      && forall i | 0 <= i < |r.records| ::
           !ticks[i].stopSet && ticks[i].lockin.Some? && r.records[i] == ExpectedRecord(cfg, ticks[i])
    decreases |ticks|
  {
    if |ticks| > 0 && Step(cfg, st, ticks[0]).Emit? {
      var next := Step(cfg, st, ticks[0]).next;
      RunRecordsMatch(cfg, next, ticks[1..]);
      var rest := Run(cfg, next, ticks[1..]);
      var r := Run(cfg, st, ticks);
      assert r.records == [Step(cfg, st, ticks[0]).record] + rest.records;
      forall i | 0 <= i < |r.records|
        ensures !ticks[i].stopSet && ticks[i].lockin.Some? && r.records[i] == ExpectedRecord(cfg, ticks[i])
      {
        if i > 0 {
          assert r.records[i] == rest.records[i - 1] && ticks[i] == ticks[1..][i - 1];
        }
      }
    }
  }

  /** The rows written are the rows of the records stored. */
  lemma {:induction false} RunRows(cfg: LoopConfig, st: LoopState, ticks: seq<Tick>)
    ensures Run(cfg, st, ticks).rows == IncrementalRows(Run(cfg, st, ticks).records)
    decreases |ticks|
  {
    if |ticks| > 0 && Step(cfg, st, ticks[0]).Emit? {
      var next := Step(cfg, st, ticks[0]).next;
      RunRows(cfg, next, ticks[1..]);
      var rest := Run(cfg, next, ticks[1..]);
      assert IncrementalRows([Step(cfg, st, ticks[0]).record] + rest.records)
          == [IncrementalRow(Step(cfg, st, ticks[0]).record)] + IncrementalRows(rest.records);
    }
  }

  /** The stationary counter stays below the threshold between ticks. */
  lemma {:induction false} RunKeepsCounterBelowThreshold(cfg: LoopConfig, st: LoopState, ticks: seq<Tick>)
    requires st.stationary < StationaryThreshold
    ensures Run(cfg, st, ticks).state.stationary < StationaryThreshold
    decreases |ticks|
  {
    if |ticks| > 0 {
      match Step(cfg, st, ticks[0])
      case Halt(c) =>
      case Emit(next, rec) =>
        RunKeepsCounterBelowThreshold(cfg, next, ticks[1..]);
    }
  }

  /** Once the loop has ended, later ticks change nothing. */
  lemma {:induction false} RunIgnoresTicksAfterStop(cfg: LoopConfig, st: LoopState, ticks: seq<Tick>, more: seq<Tick>)
    requires Run(cfg, st, ticks).exit.Some?
    ensures Run(cfg, st, ticks + more) == Run(cfg, st, ticks)
    decreases |ticks|
  {
    assert (ticks + more)[0] == ticks[0];
    match Step(cfg, st, ticks[0])
    case Halt(c) =>
    case Emit(next, rec) =>
      assert (ticks + more)[1..] == ticks[1..] + more;
      RunIgnoresTicksAfterStop(cfg, next, ticks[1..], more);
  }

  /** Running one more tick after a still-running loop is one more step. */
  lemma {:induction false} RunSnoc(cfg: LoopConfig, st: LoopState, ticks: seq<Tick>, t: Tick)
    requires Run(cfg, st, ticks).exit.None?
    ensures var r := Run(cfg, st, ticks);
      Run(cfg, st, ticks + [t]) ==
        match Step(cfg, r.state, t)
        case Halt(c) => r.(exit := Some(c))
        case Emit(next, rec) => RunResult(r.records + [rec], r.rows + [IncrementalRow(rec)], next, None)
    decreases |ticks|
  {
    if |ticks| == 0 {
      assert [] + [t] == [t];
      assert [t][1..] == [];
    } else {
      assert (ticks + [t])[0] == ticks[0];
      match Step(cfg, st, ticks[0])
      case Halt(c) =>
      case Emit(next, rec) =>
        assert (ticks + [t])[1..] == ticks[1..] + [t];
        RunSnoc(cfg, next, ticks[1..], t);
    }
  }

  /** The position one tick reported: none without an encoder sample. */
  function Reported(offset: int, t: Tick): seq<real>
  {
    if t.latest.Some? then [Position(t.latest.value.count, offset)] else []
  }

  /** The positions the encoder reported, in tick order; ticks without a
      sample contribute nothing. */
  function History(offset: int, ticks: seq<Tick>): seq<real>
    decreases |ticks|
  {
    if |ticks| == 0 then []
    else Reported(offset, ticks[0]) + History(offset, ticks[1..])
  }

  lemma HistoryOfPrefix(offset: int, ticks: seq<Tick>, k: nat)
    requires 0 < k <= |ticks|
    ensures History(offset, ticks[..k]) == Reported(offset, ticks[0]) + History(offset, ticks[1..][..k - 1])
  {
    assert ticks[..k][0] == ticks[0];
    assert ticks[..k][1..] == ticks[1..][..k - 1];
  }

  /** Extending a history by the first tick's report and then by the next
      `k` ticks' reports is extending it by the first `k + 1` ticks' reports. */
  lemma PrependHistory(offset: int, h: seq<real>, ticks: seq<Tick>, k: nat)
    requires k < |ticks|
    ensures (h + Reported(offset, ticks[0])) + History(offset, ticks[1..][..k]) == h + History(offset, ticks[..k + 1])
  {
    HistoryOfPrefix(offset, ticks, k + 1);
  }

  /** One iteration on a sampled tick decides exactly what the termination
      policy decides on the history extended by the new position, and when
      it continues it leaves the summary of that extended history. */
  lemma StepAgreesWithPolicy(cfg: LoopConfig, h: seq<real>, t: Tick)
    requires cfg.offset.Some? && t.latest.Some? && !t.stopSet
    requires CloseSteps(h) < StationaryThreshold
    ensures var p := Position(t.latest.value.count, cfg.offset.value);
      var r := Step(cfg, Summary(h), t);
      && (r == Halt(EndOfTrack) <==> Decide(h + [p], cfg.axisMax) == StopEndOfTrack)
      && (r == Halt(Stationary) <==> Decide(h + [p], cfg.axisMax) == StopStationary)
      && (Decide(h + [p], cfg.axisMax) == Continue ==> (r.Emit? <==> t.lockin.Some?))
      && (Decide(h + [p], cfg.axisMax) == Continue && t.lockin.None? ==> r == Halt(Raised(DeviceFault)))
      && (r.Emit? ==> r.next == Summary(h + [p]))
  {
    var p := Position(t.latest.value.count, cfg.offset.value);
    var h' := h + [p];
    assert h'[|h'| - 1] == p;
    if |h| > 0 {
      assert h'[..|h'| - 1] == h;
      assert h'[|h'| - 2] == h[|h| - 1];
    }
  }

  /** Appending ticks appends their positions to the history. */
  lemma {:induction false} HistoryAppend(offset: int, a: seq<Tick>, b: seq<Tick>)
    ensures History(offset, a + b) == History(offset, a) + History(offset, b)
    decreases |a|
  {
    if |a| == 0 {
      assert a + b == b;
    } else {
      assert (a + b)[0] == a[0];
      assert (a + b)[1..] == a[1..] + b;
      HistoryAppend(offset, a[1..], b);
    }
  }

  /** The history up to tick `k` inclusive is the history before it plus the
      position tick `k` reported, if any. */
  lemma HistoryThrough(offset: int, ticks: seq<Tick>, k: nat)
    requires k < |ticks|
    ensures History(offset, ticks[..k + 1]) == History(offset, ticks[..k])
      + Reported(offset, ticks[k])
  {
    assert ticks[..k + 1] == ticks[..k] + [ticks[k]];
    HistoryAppend(offset, ticks[..k], [ticks[k]]);
    assert [ticks[k]][1..] == [];
  }

  /** A completed tick extends the summarised history by what it reported. */
  lemma EmitExtendsSummary(cfg: LoopConfig, h: seq<real>, t: Tick)
    requires cfg.offset.Some?
    requires CloseSteps(h) < StationaryThreshold
    requires Step(cfg, Summary(h), t).Emit?
    ensures Step(cfg, Summary(h), t).next == Summary(h + Reported(cfg.offset.value, t))
    ensures CloseSteps(h + Reported(cfg.offset.value, t)) < StationaryThreshold
  {
    if t.latest.Some? {
      StepAgreesWithPolicy(cfg, h, t);
    } else {
      assert h + Reported(cfg.offset.value, t) == h;
    }
  }

  /** While the loop runs, and at the tick where it stops, its state is the
      summary of the positions reported by the ticks it completed. */
  lemma {:induction false} RunStateIsSummary(cfg: LoopConfig, h: seq<real>, ticks: seq<Tick>)
    requires cfg.offset.Some?
    requires CloseSteps(h) < StationaryThreshold
    ensures var r := Run(cfg, Summary(h), ticks);
      |r.records| <= |ticks| && r.state == Summary(h + History(cfg.offset.value, ticks[..|r.records|]))
    decreases |ticks|
  {
    var off := cfg.offset.value;
    RunLength(cfg, Summary(h), ticks);
    var r := Run(cfg, Summary(h), ticks);
    if |ticks| == 0 || Step(cfg, Summary(h), ticks[0]).Halt? {
      assert |r.records| == 0;
      assert h + History(off, ticks[..0]) == h;
    } else {
      var t := ticks[0];
      EmitExtendsSummary(cfg, h, t);
      var h1 := h + Reported(off, t);
      RunStateIsSummary(cfg, h1, ticks[1..]);
      var rest := Run(cfg, Summary(h1), ticks[1..]);
      assert r.state == rest.state && |r.records| == |rest.records| + 1;
      PrependHistory(off, h, ticks, |rest.records|);
    }
  }

  /** A stopped loop is still running on every prefix of the completed ticks. */
  lemma RunPrefixStillRunning(cfg: LoopConfig, st: LoopState, ticks: seq<Tick>, k: nat)
    requires k <= |Run(cfg, st, ticks).records|
    ensures k <= |ticks| && Run(cfg, st, ticks[..k]).exit.None?
  {
    RunLength(cfg, st, ticks);
    RunLength(cfg, st, ticks[..k]);
    assert ticks[..k] + ticks[k..] == ticks;
    if Run(cfg, st, ticks[..k]).exit.Some? {
      RunIgnoresTicksAfterStop(cfg, st, ticks[..k], ticks[k..]);
      assert false;
    }
  }

  /** Every sampled tick the loop completes is one the termination policy,
      applied to the history through that tick, lets continue. */
  lemma RunContinuesOnlyWhenPolicyContinues(cfg: LoopConfig, ticks: seq<Tick>, k: nat)
    requires cfg.offset.Some?
    requires k < |Run(cfg, Initial, ticks).records| && k < |ticks| && ticks[k].latest.Some?
    ensures |History(cfg.offset.value, ticks[..k + 1])| > 0
    ensures Decide(History(cfg.offset.value, ticks[..k + 1]), cfg.axisMax) == Continue
  {
    var off := cfg.offset.value;
    assert Summary([]) == Initial;
    RunPrefixStillRunning(cfg, Initial, ticks, k);
    RunPrefixStillRunning(cfg, Initial, ticks, k + 1);
    var pre := Run(cfg, Initial, ticks[..k]);
    RunLength(cfg, Initial, ticks[..k]);
    assert ticks[..k][..|pre.records|] == ticks[..k];
    RunStateIsSummary(cfg, [], ticks[..k]);
    RunKeepsCounterBelowThreshold(cfg, Initial, ticks[..k]);
    var hk := History(off, ticks[..k]);
    assert [] + hk == hk;
    assert pre.state == Summary(hk);
    RunSnoc(cfg, Initial, ticks[..k], ticks[k]);
    assert ticks[..k] + [ticks[k]] == ticks[..k + 1];
    StepAgreesWithPolicy(cfg, hk, ticks[k]);
    HistoryThrough(off, ticks, k);
  }

  /** A fresh loop that has ended did so on the tick after its completed
      ones, from the summary of the positions those ticks reported. */
  lemma RunEndsFromSummary(cfg: LoopConfig, ticks: seq<Tick>)
    requires cfg.offset.Some?
    ensures var r := Run(cfg, Initial, ticks);
      && |r.records| <= |ticks|
      && (r.exit.Some? ==>
            var hk := History(cfg.offset.value, ticks[..|r.records|]);
            && |r.records| < |ticks|
            && CloseSteps(hk) < StationaryThreshold
            && Step(cfg, Summary(hk), ticks[|r.records|]) == Halt(r.exit.value))
  {
    var r := Run(cfg, Initial, ticks);
    assert Summary([]) == Initial;
    RunLength(cfg, Initial, ticks);
    RunHaltsAt(cfg, Initial, ticks);
    RunStateIsSummary(cfg, [], ticks);
    RunKeepsCounterBelowThreshold(cfg, Initial, ticks);
    var hk := History(cfg.offset.value, ticks[..|r.records|]);
    assert [] + hk == hk;
  }

  /** The loop stops for end-of-track or a stationary carriage exactly on the
      tick whose history the termination policy stops, with the same cause. */
  lemma RunStopsWhenPolicyStops(cfg: LoopConfig, ticks: seq<Tick>)
    requires cfg.offset.Some?
    ensures var r := Run(cfg, Initial, ticks);
      r.exit == Some(EndOfTrack) || r.exit == Some(Stationary) ==>
        && |r.records| < |ticks| && ticks[|r.records|].latest.Some?
        && |History(cfg.offset.value, ticks[..|r.records| + 1])| > 0
        && Decide(History(cfg.offset.value, ticks[..|r.records| + 1]), cfg.axisMax)
           == (if r.exit == Some(EndOfTrack) then StopEndOfTrack else StopStationary)
  {
    var off := cfg.offset.value;
    var r := Run(cfg, Initial, ticks);
    if r.exit == Some(EndOfTrack) || r.exit == Some(Stationary) {
      var k := |r.records|;
      RunEndsFromSummary(cfg, ticks);
      var hk := History(off, ticks[..k]);
      var t := ticks[k];
      assert Step(cfg, Summary(hk), t) == Halt(r.exit.value);
      assert t.latest.Some? && !t.stopSet;
      StepAgreesWithPolicy(cfg, hk, t);
      HistoryThrough(off, ticks, k);
      assert History(off, ticks[..k + 1]) == hk + [Position(t.latest.value.count, off)];
    }
  }

  /** A stationary stop from a fresh loop needs at least six sampled ticks:
      five consecutive short steps between six positions. */
  lemma StationaryStopNeedsSixSamples(cfg: LoopConfig, ticks: seq<Tick>)
    requires cfg.offset.Some?
    ensures var r := Run(cfg, Initial, ticks);
      r.exit == Some(Stationary) ==>
        |r.records| < |ticks| && |History(cfg.offset.value, ticks[..|r.records| + 1])| >= StationaryThreshold + 1
  {
    RunStopsWhenPolicyStops(cfg, ticks);
    var r := Run(cfg, Initial, ticks);
    if r.exit == Some(Stationary) {
      StationaryNeedsSixPositions(History(cfg.offset.value, ticks[..|r.records| + 1]), cfg.axisMax);
    }
  }

  /** The laser worker's parameters; lock-in phase is always 0. */
  datatype ScanRequest = ScanRequest(
    freqGhz: real, velocity: real, velocityUnit: Option<string>,
    sampleRate: real, lockinFreqHz: real, lockinIntTimeMs: real, amplifierGain: real)

  /** The request `scan_and_collect` makes when only frequency and velocity are given. */
  function DefaultRequest(freqGhz: real, velocity: real): ScanRequest
  {
    ScanRequest(freqGhz, velocity, None, 10.0, 5000.0, 100.0, 1000000.0)
  }

  /** The commands the worker issues before its loop, in order. */
  function SetupCalls(req: ScanRequest): seq<DeviceCall>
  {
    [ SetFrequency(req.freqGhz),
      SetupLockin(req.lockinFreqHz, req.lockinIntTimeMs, req.amplifierGain, 0.0),
      StartTransmission,
      MoveVelocity(req.velocity, req.velocityUnit) ]
  }

  /** How many iterations of a run reached the lock-in stage and so reset
      the lock-in: every completed tick, and the tick whose read failed. */
  function LockinStages(r: RunResult): nat
  {
    |r.records| + (if r.exit == Some(Raised(DeviceFault)) then 1 else 0)
  }

  /** Everything one worker run leaves behind. */
  datatype WorkerRun = WorkerRun(records: seq<Record>, file: seq<Line>, calls: seq<DeviceCall>, exit: Option<StopCause>)

  /** The whole worker: set-up calls, the header, the loop, and the teardown
      that runs on every way out of the loop. */
  function Worker(cfg: LoopConfig, req: ScanRequest, ticks: seq<Tick>): WorkerRun
  {
    var r := Run(cfg, Initial, ticks);
    WorkerRun(
      r.records,
      [Header(IncrementalColumns)] + r.rows,
      SetupCalls(req) + Resets(LockinStages(r)) + (if r.exit.Some? then Teardown else []),
      r.exit)
  }

  /** The set-up starts one scan and stops nothing. */
  lemma AppendSetup(calls: seq<DeviceCall>, req: ScanRequest)
    ensures var s := calls + SetupCalls(req);
      && VelocityMoves(s) == VelocityMoves(calls) + 1
      && Count(s, MotorStop) == Count(calls, MotorStop)
      && Count(s, StartTransmission) == Count(calls, StartTransmission) + 1
      && Count(s, StopTransmission) == Count(calls, StopTransmission)
  {
    var pre := [SetFrequency(req.freqGhz), SetupLockin(req.lockinFreqHz, req.lockinIntTimeMs, req.amplifierGain, 0.0)];
    var start := [StartTransmission, MoveVelocity(req.velocity, req.velocityUnit)];
    assert SetupCalls(req) == pre + start;
    assert calls + SetupCalls(req) == (calls + pre) + start;
    assert Neutral(pre[0]) && Neutral(pre[1]);
    AppendNeutral(calls, pre);
    AppendScanStart(calls + pre, req.velocity, req.velocityUnit);
  }

  /** The worker's file is its header and the rows of its records. */
  lemma WorkerFile(cfg: LoopConfig, req: ScanRequest, ticks: seq<Tick>)
    ensures var w := Worker(cfg, req, ticks);
      w.file == IncrementalFile(w.records) && ParseRows(w.file[1..]) == Some(w.records)
  {
    var w := Worker(cfg, req, ticks);
    RunRecordsTicks(cfg, Initial, ticks);
    assert w.file[1..] == IncrementalRows(w.records);
    IncrementalRowsRoundTrip(w.records);
  }

  /** The worker issues the teardown once, and last, exactly when its loop ended. */
  lemma WorkerTeardown(cfg: LoopConfig, req: ScanRequest, ticks: seq<Tick>)
    ensures var w := Worker(cfg, req, ticks);
      && Count(w.calls, MotorStop) == (if w.exit.Some? then 1 else 0)
      && Count(w.calls, StopTransmission) == (if w.exit.Some? then 1 else 0)
      && (w.exit.Some? ==> w.calls[|w.calls| - 2..] == Teardown)
  {
    var w := Worker(cfg, req, ticks);
    var body := SetupCalls(req) + Resets(LockinStages(Run(cfg, Initial, ticks)));
    AppendSetup([], req);
    assert [] + SetupCalls(req) == SetupCalls(req);
    AppendNeutral(SetupCalls(req), Resets(LockinStages(Run(cfg, Initial, ticks))));
    if w.exit.Some? {
      AppendTeardown(body);
    } else {
      assert w.calls == body + [];
    }
  }

  /** Whatever ends the loop (stop flag, end-of-track, stationary carriage or
      an exception), the file holds the header and exactly one row per stored
      record, in order, and the motor is stopped and then the encoder
      transmission stopped, each exactly once, as the last two commands. A
      loop that has not ended has issued neither. */
  lemma WorkerGuarantees(cfg: LoopConfig, req: ScanRequest, ticks: seq<Tick>)
    ensures var w := Worker(cfg, req, ticks);
      && w.file == IncrementalFile(w.records)
      && ParseRows(w.file[1..]) == Some(w.records)
      && Count(w.calls, MotorStop) == (if w.exit.Some? then 1 else 0)
      && Count(w.calls, StopTransmission) == (if w.exit.Some? then 1 else 0)
      && (w.exit.Some? ==> w.calls[|w.calls| - 2..] == Teardown)
  {
    WorkerFile(cfg, req, ticks);
    WorkerTeardown(cfg, req, ticks);
  }

  /** Ticks that carry no encoder sample but a good lock-in reading are
      each stored and leave the loop state alone; a failing read after them
      ends the loop with a device fault. */
  lemma {:induction false} SampleFreeTicksThenFault(cfg: LoopConfig, st: LoopState, ticks: seq<Tick>)
    requires forall i | 0 <= i < |ticks| :: !ticks[i].stopSet && ticks[i].latest.None? && ticks[i].lockin.Some?
    ensures var r := Run(cfg, st, ticks + [Tick(false, None, None)]);
      && |r.records| == |ticks| && r.state == st && r.exit == Some(Raised(DeviceFault))
    decreases |ticks|
  {
    var all := ticks + [Tick(false, None, None)];
    if |ticks| > 0 {
      assert all[1..] == ticks[1..] + [Tick(false, None, None)];
      SampleFreeTicksThenFault(cfg, st, ticks[1..]);
    }
  }

  /** Seven completed ticks and then a failing lock-in read: the file keeps
      its header and seven rows, the lock-in is reset eight times, and the
      teardown runs once. */
  lemma CrashAfterSevenRecords(cfg: LoopConfig, req: ScanRequest, rd: Reading)
    ensures var ok := Tick(false, None, Some(rd));
      var w := Worker(cfg, req, [ok, ok, ok, ok, ok, ok, ok, Tick(false, None, None)]);
      && |w.records| == 7 && |w.file| == 8
      && w.exit == Some(Raised(DeviceFault))
      && Count(w.calls, MotorStop) == 1 && Count(w.calls, StopTransmission) == 1
      && w.calls == SetupCalls(req) + Resets(8) + Teardown
  {
    var ok := Tick(false, None, Some(rd));
    var ticks := [ok, ok, ok, ok, ok, ok, ok, Tick(false, None, None)];
    assert ticks == [ok, ok, ok, ok, ok, ok, ok] + [Tick(false, None, None)];
    SampleFreeTicksThenFault(cfg, Initial, [ok, ok, ok, ok, ok, ok, ok]);
    RunLength(cfg, Initial, ticks);
    WorkerGuarantees(cfg, req, ticks);
  }
}

=== FILE: scan_planning.dfy ===
/**
 Scan-planning formulas relating the Nyquist rate, the fringe frequency, the
 optical-path-difference resolution, the mirror velocity and the scan time.
 Units are fixed instead of carried: lengths in millimetres, times in
 seconds, frequencies in hertz. A division by zero yields an infinite or
 undefined value rather than an error for these unit-carrying quantities;
 the model returns `None` for it.
 */
module ScanPlanning {
  import opened Wrappers

  /** The speed of light, in mm/s. */
  const SpeedOfLight: real := 299792458000.0

  /** The sampling rate that resolves frequencies up to `freqMax`. */
  function Nyquist(freqMax: real): (r: real)
    ensures FringeFreq(r) == freqMax
    ensures freqMax > 0.0 ==> r > freqMax
  {
    2.0 * freqMax
  }

  /** The highest fringe frequency a sampling rate resolves. */
  function FringeFreq(sampRate: real): (r: real)
    ensures sampRate > 0.0 ==> 0.0 < r < sampRate
  {
    sampRate / 2.0
  }

  /** Nyquist and fringe frequency are inverse to each other in both directions. */
  lemma NyquistFringeInverse(f: real)
    ensures FringeFreq(Nyquist(f)) == f
    ensures Nyquist(FringeFreq(f)) == f
  {
  }

  /** The optical-path-difference resolution (mm) for a maximum frequency:
      one wavelength at the Nyquist rate. */
  function DeltaOpd(freqMax: real): (r: Option<real>)
    ensures r.Some? <==> freqMax != 0.0
    ensures r.Some? ==> r.value * Nyquist(freqMax) == SpeedOfLight
    ensures freqMax > 0.0 ==> r.Some? && r.value > 0.0
  {
    if freqMax == 0.0 then None else Some(SpeedOfLight / (2.0 * freqMax))
  }

  /** The mirror velocity (mm/s) for Nyquist sampling, `n` times oversampled
      (one by default), given a sampling quantity and a maximum frequency
      whose product is in mm/s. */
  function MirrorVelocity(sampRate: real, freqMax: real, n: real := 1.0): (r: Option<real>)
    ensures r.Some? <==> n != 0.0
    ensures r.Some? ==> r.value * (4.0 * n) == freqMax * sampRate
    ensures sampRate > 0.0 && freqMax > 0.0 && n > 0.0 ==> r.Some? && r.value > 0.0
  {
    if n == 0.0 then None else Some((freqMax * sampRate) / (4.0 * n))
  }

  /** Doubling the oversampling factor halves the velocity. */
  lemma DoublingOversamplingHalvesVelocity(sampRate: real, freqMax: real, n: real)
    requires n != 0.0
    ensures MirrorVelocity(sampRate, freqMax, 2.0 * n).value * 2.0 == MirrorVelocity(sampRate, freqMax, n).value
  {
    var v1 := MirrorVelocity(sampRate, freqMax, n).value;
    var v2 := MirrorVelocity(sampRate, freqMax, 2.0 * n).value;
    assert v2 * (8.0 * n) == v1 * (4.0 * n);
    assert (v2 * 2.0) * (4.0 * n) == v1 * (4.0 * n);
  }

  /** The time (s) to travel the track length at the mirror velocity. */
  function ScanTime(trackLength: real, velocity: real): (r: Option<real>)
    ensures r.Some? <==> velocity != 0.0
    ensures r.Some? ==> r.value * velocity == trackLength
    ensures trackLength > 0.0 && velocity > 0.0 ==> r.Some? && r.value > 0.0
  {
    if velocity == 0.0 then None else Some(trackLength / velocity)
  }
}

=== FILE: termination.dfy ===
/**
 The scan's motion-based termination rules, stated as a pure decision on the
 history of positions seen so far. The worker loop carries only the last
 position and a counter; `ScanLoop.RunStopsWhenPolicyStops` and
 `ScanLoop.RunContinuesOnlyWhenPolicyContinues` prove that its
 decisions are exactly the ones defined here.
 */
module Termination {

  /** A step shorter than this (mm) counts as "not moving". */
  const StationaryEpsilon: real := 0.001
  /** This many consecutive short steps end the scan. */
  const StationaryThreshold: nat := 5
  /** The scan ends once the carriage reaches this fraction of the axis maximum. */
  const EndOfTrackFraction: real := 0.98

  function Abs(x: real): real { if x < 0.0 then -x else x }

  /** The carriage is at the end of its track. */
  predicate AtEndOfTrack(pos: real, axisMax: real)
  {
    pos >= axisMax * EndOfTrackFraction
  }

  /** The step from `prev` to `cur` is short enough to count as stationary. */
  predicate Close(prev: real, cur: real)
  {
    Abs(cur - prev) < StationaryEpsilon
  }

  /** The number of trailing consecutive short steps in a position history. */
  function CloseSteps(h: seq<real>): (n: nat)
    ensures |h| == 0 ==> n == 0
    ensures |h| > 0 ==> n < |h|
    decreases |h|
  {
    if |h| < 2 then 0
    else if Close(h[|h| - 2], h[|h| - 1]) then CloseSteps(h[..|h| - 1]) + 1
    else 0
  }

  datatype Decision = Continue | StopEndOfTrack | StopStationary

  /** What the newest position in the history decides. End-of-track is judged
      on the newest position alone and is checked first. */
  function Decide(h: seq<real>, axisMax: real): Decision
    requires |h| > 0
  {
    if AtEndOfTrack(h[|h| - 1], axisMax) then StopEndOfTrack
    else if CloseSteps(h) >= StationaryThreshold then StopStationary
    else Continue
  }

  /** `CloseSteps` counts exactly the maximal run of short steps at the end of
      the history: every one of the last `n` steps is short, and the step just
      before them (if any) is not. */
  lemma {:induction false} CloseStepsIsTrailingRun(h: seq<real>)
    ensures forall i | |h| - 1 - CloseSteps(h) <= i < |h| - 1 && 0 <= i :: Close(h[i], h[i + 1])
    ensures 2 <= |h| && CloseSteps(h) < |h| - 1 ==>
              !Close(h[|h| - 2 - CloseSteps(h)], h[|h| - 1 - CloseSteps(h)])
    decreases |h|
  {
    if |h| >= 2 && Close(h[|h| - 2], h[|h| - 1]) {
      var h' := h[..|h| - 1];
      CloseStepsIsTrailingRun(h');
      forall i | |h| - 1 - CloseSteps(h) <= i < |h| - 1 && 0 <= i
        ensures Close(h[i], h[i + 1])
      {
        if i < |h| - 2 {
          assert h[i] == h'[i] && h[i + 1] == h'[i + 1];
        }
      }
    }
  }

  /** A stationary stop needs at least six positions: the first position has
      no predecessor and so can never count as a short step. */
  lemma StationaryNeedsSixPositions(h: seq<real>, axisMax: real)
    requires |h| > 0 && Decide(h, axisMax) == StopStationary
    ensures |h| >= StationaryThreshold + 1
  {
  }

  /** Five positions whose every step is under 0.001 mm do not stop the scan:
      there are only four steps. A sixth short step does. */
  lemma StationaryExample()
    ensures Decide([10.0, 10.0005, 10.0003, 10.0008, 10.0002], 50.0) == Continue
    ensures Decide([10.0, 10.0005, 10.0003, 10.0008, 10.0002, 10.0001], 50.0) == StopStationary
  {
    var h := [10.0, 10.0005, 10.0003, 10.0008, 10.0002, 10.0001];
    assert h[..5] == [10.0, 10.0005, 10.0003, 10.0008, 10.0002];
    assert h[..5][..4] == [10.0, 10.0005, 10.0003, 10.0008];
    assert h[..5][..4][..3] == [10.0, 10.0005, 10.0003];
    assert h[..5][..4][..3][..2] == [10.0, 10.0005];
    assert CloseSteps([10.0, 10.0005]) == 1;
    assert CloseSteps([10.0, 10.0005, 10.0003]) == 2;
    assert CloseSteps([10.0, 10.0005, 10.0003, 10.0008]) == 3;
    assert CloseSteps([10.0, 10.0005, 10.0003, 10.0008, 10.0002]) == 4;
  }

  /** With a 50 mm axis, 49.0 mm (98 %) is the end of the track and 48.9 mm is not. */
  lemma EndOfTrackExample()
    ensures Decide([49.0], 50.0) == StopEndOfTrack
    ensures Decide([48.9], 50.0) == Continue
  {
  }
}

=== FILE: toptica_controller.dfy ===
/**
 The lifecycle of the laser scan controller: calibration, starting a scan
 (single-flight), the worker's ticks, stopping (join, then persist the store
 if it holds anything) and closing. The worker thread is replaced by explicit
 steps: starting a scan also performs the worker's set-up and opens the output
 file, each `WorkerTick` is one loop iteration, and joining the worker after
 the stop flag is set is its next loop head, which sees the flag.
 */
module TopticaController {
  import opened Wrappers
  import opened Calibration
  import opened Devices
  import opened Termination
  import opened Records
  import opened ScanLoop

  /** The worker thread: never started, running its loop, or exited. */
  datatype Phase = Idle | Scanning(loop: LoopState, request: ScanRequest) | Finished(cause: StopCause)

  datatype Controller = Controller(
    offset: Option<int>,
    axisMax: real,
    stopFlag: bool,
    phase: Phase,
    dataStore: seq<Record>,
    saveFilename: Option<string>,
    files: map<string, seq<Line>>,
    calls: seq<DeviceCall>)

  /** What the worker observes on one tick besides the stop flag. */
  datatype Observation = Observation(latest: Option<Sample>, lockin: Option<Reading>)

  /** A freshly constructed controller for a motor whose axis ends at `axisMax`. */
  function New(axisMax: real): Controller
  {
    Controller(None, axisMax, false, Idle, [], None, map[], [])
  }

  /** Moves to the physical zero and records the count read there. */
  function FindOffset(c: Controller, countAtZero: int): (c': Controller)
    ensures c'.offset == Some(countAtZero)
    ensures GetPosition(c', countAtZero) == Ok(0.0)
    ensures c'.calls == c.calls + [MoveAbsolute(0.0), GetCount]
    ensures c'.phase == c.phase && c'.stopFlag == c.stopFlag && c'.dataStore == c.dataStore
    ensures c'.saveFilename == c.saveFilename && c'.files == c.files && c'.axisMax == c.axisMax
  {
    c.(offset := Some(countAtZero), calls := c.calls + [MoveAbsolute(0.0), GetCount])
  }

  /** Connects the laser, initialises encoder then motor, calibrates, and
      reports success. */
  function Init(c: Controller, countAtZero: int): (r: (Controller, bool))
    ensures r.1
    ensures r.0.offset == Some(countAtZero)
    ensures r.0.calls == c.calls + [ConnectLaser, EncoderInit, MotorInit, MoveAbsolute(0.0), GetCount]
    ensures r.0.phase == c.phase && r.0.stopFlag == c.stopFlag && r.0.dataStore == c.dataStore
    ensures r.0.saveFilename == c.saveFilename && r.0.files == c.files && r.0.axisMax == c.axisMax
  {
    (FindOffset(c.(calls := c.calls + [ConnectLaser, EncoderInit, MotorInit]), countAtZero), true)
  }

  /** The position for a count just read from the encoder; before calibration
      the subtraction from `None` raises. */
  function GetPosition(c: Controller, count: int): (r: Result<real, ControllerError>)
    ensures r.Err? <==> c.offset.None?
    ensures r.Err? ==> r.error == NotCalibrated
    ensures r.Ok? ==> CountAt(r.value, c.offset.value) == count
    ensures r.Ok? ==> (r.value == 0.0 <==> count == c.offset.value)
    ensures r.Ok? ==> r.value / Resolution == (count - c.offset.value) as real
  {
    match c.offset
    case None => Err(NotCalibrated)
    case Some(off) =>
      PositionRoundTrip(count, off);
      Ok(Position(count, off))
  }

  /** Two calibrated position readings differ by the count difference times
      the resolution. */
  lemma GetPositionLinear(c: Controller, c1: int, c2: int)
    requires c.offset.Some?
    ensures GetPosition(c, c1).value - GetPosition(c, c2).value == (c1 - c2) as real * Resolution
  {
    PositionDifference(c1, c2, c.offset.value);
  }

  const DefaultDirectory: string := "C:/Users/vnh2/Desktop/FTS/cryo_fts_data/scan_data"

  /** The file name used when none is given; `stamp` is the current time
      formatted as `%Y%m%d_%H%M%S`. */
  function DefaultPath(stamp: string): (p: string)
    ensures |p| == |DefaultDirectory| + |stamp| + 4
    ensures p[..|DefaultDirectory|] == DefaultDirectory
    ensures p[|p| - 4..] == ".csv"
    ensures p[|DefaultDirectory|..|p| - 4] == stamp
  {
    DefaultDirectory + stamp + ".csv"
  }

  /** Different time stamps give different default file names. */
  lemma DefaultPathInjective(s1: string, s2: string)
    requires DefaultPath(s1) == DefaultPath(s2)
    ensures s1 == s2
  {
    var p := DefaultPath(s1);
    assert s1 == p[|DefaultDirectory|..|p| - 4];
  }

  /** The contents of `path`, or nothing if it was never written. */
  function FileAt(files: map<string, seq<Line>>, path: string): seq<Line>
  {
    if path in files then files[path] else []
  }

  /** Starts a scan. While the worker is alive this raises and nothing
      changes. Otherwise the stop flag is cleared, the store emptied, the
      file name chosen, and the worker's set-up commands issued and its file
      opened (truncated) with the header. */
  function ScanAndCollect(c: Controller, req: ScanRequest, saveTo: Option<string>, stamp: string): (r: Result<Controller, ControllerError>)
    ensures r.Err? <==> c.phase.Scanning?
    ensures r.Err? ==> r.error == AlreadyRunning
    ensures r.Ok? ==>
      var path := if saveTo.Some? then saveTo.value else DefaultPath(stamp);
      && !r.value.stopFlag
      && r.value.dataStore == []
      && r.value.saveFilename == Some(path)
      && r.value.phase == Scanning(Initial, req)
      && r.value.files == c.files[path := IncrementalFile([])]
      && r.value.calls == c.calls + SetupCalls(req)
      && r.value.offset == c.offset
      && r.value.axisMax == c.axisMax
  {
    if c.phase.Scanning? then Err(AlreadyRunning)
    else
      var path := match saveTo { case Some(p) => p case None => DefaultPath(stamp) };
      assert IncrementalFile([]) == [Header(IncrementalColumns)];
      Ok(c.(stopFlag := false, dataStore := [], saveFilename := Some(path),
            phase := Scanning(Initial, req),
            files := c.files[path := [Header(IncrementalColumns)]],
            calls := c.calls + SetupCalls(req)))
  }

  /** A start that leaves every keyword argument at its default sets the
      lock-in to 5 kHz, 100 ms integration, gain 1e6 and phase 0. */
  lemma DefaultStartSetsUpLockin(c: Controller, freqGhz: real, velocity: real, saveTo: Option<string>, stamp: string)
    requires !c.phase.Scanning?
    ensures var r := ScanAndCollect(c, DefaultRequest(freqGhz, velocity), saveTo, stamp);
      && r.Ok?
      && r.value.calls == c.calls + [SetFrequency(freqGhz), SetupLockin(5000.0, 100.0, 1000000.0, 0.0),
                                     StartTransmission, MoveVelocity(velocity, None)]
      && r.value.phase.request.sampleRate == 10.0
  {
  }

  /** The loop configuration as the worker reads it on this tick. */
  function Config(c: Controller): LoopConfig
  {
    LoopConfig(c.offset, c.axisMax)
  }

  /** One iteration of the worker's loop, if the worker is running. */
  function WorkerTick(c: Controller, o: Observation): (c': Controller)
    ensures !c.phase.Scanning? ==> c' == c
    ensures c.phase.Scanning? && c.stopFlag ==> c'.phase == Finished(Cancelled)
    ensures |c'.dataStore| >= |c.dataStore|
    ensures c.phase.Scanning? ==>
      (c'.phase.Finished? <==> |c'.dataStore| == |c.dataStore|)
      && (c'.phase.Scanning? <==> |c'.dataStore| == |c.dataStore| + 1)
      && c'.dataStore[..|c.dataStore|] == c.dataStore
    ensures c.phase.Scanning? && c'.phase.Finished? ==>
      && c'.files == c.files
      && c'.calls == c.calls + (if c'.phase.cause == Raised(DeviceFault) then [ResetLockin] else []) + Teardown
    ensures c.phase.Scanning? && c'.phase.Scanning? ==> c'.calls == c.calls + [ResetLockin]
    ensures c'.offset == c.offset && c'.axisMax == c.axisMax && c'.saveFilename == c.saveFilename
    ensures c.phase.Scanning? && c'.phase.Scanning? && c.saveFilename.Some? ==>
      var path := c.saveFilename.value;
      c'.files == c.files[path := FileAt(c.files, path) + [IncrementalRow(c'.dataStore[|c.dataStore|])]]
  {
    match c.phase
    case Scanning(st, req) =>
      (match Step(Config(c), st, Tick(c.stopFlag, o.latest, o.lockin))
       case Halt(cause) =>
         var reset := if cause == Raised(DeviceFault) then [ResetLockin] else [];
         c.(phase := Finished(cause), calls := c.calls + reset + Teardown)
       case Emit(next, rec) =>
         var files := match c.saveFilename {
           case Some(path) => c.files[path := FileAt(c.files, path) + [IncrementalRow(rec)]]
           case None => c.files };
         c.(phase := Scanning(next, req), dataStore := c.dataStore + [rec], files := files,
            calls := c.calls + [ResetLockin]))
    case _ => c
  }

  /** When the worker exits, whatever the cause, the scan's file keeps its
      header and one row per stored record, and the motor stop and then the
      transmission stop are the last two commands issued. */
  lemma WorkerExitKeepsFile(c: Controller, o: Observation)
    requires Valid(c) && c.phase.Scanning?
    ensures var c' := WorkerTick(c, o);
      c'.phase.Finished? ==>
        && c'.saveFilename.Some? && c'.saveFilename.value in c'.files
        && c'.files[c'.saveFilename.value] == IncrementalFile(c'.dataStore)
        && c'.calls[|c'.calls| - 2..] == [MotorStop, StopTransmission]
  {
    var c' := WorkerTick(c, o);
    if c'.phase.Finished? {
      var reset := if c'.phase.cause == Raised(DeviceFault) then [ResetLockin] else [];
      assert c'.calls == (c.calls + reset) + Teardown;
    }
  }

  /** Sets the stop flag, joins a running worker (which then exits as
      cancelled and tears down), and writes the store to the scan's file only
      when it holds at least one record. */
  function StopScan(c: Controller): (c': Controller)
    ensures c'.stopFlag
    ensures !c'.phase.Scanning?
    ensures c'.dataStore == c.dataStore
    ensures c.phase.Scanning? ==> c'.phase == Finished(Cancelled)
    ensures |c.dataStore| > 0 && c.saveFilename.Some? ==>
      c'.files == c.files[c.saveFilename.value := DatasetFile(c.dataStore)]
    ensures |c.dataStore| == 0 ==> c'.files == c.files
    ensures c.phase.Scanning? ==> c'.calls == c.calls + Teardown
    ensures !c.phase.Scanning? ==> c'.phase == c.phase && c'.calls == c.calls
    ensures c'.offset == c.offset && c'.saveFilename == c.saveFilename && c'.axisMax == c.axisMax
  {
    var joined :=
      if c.phase.Scanning? then c.(stopFlag := true, phase := Finished(Cancelled), calls := c.calls + Teardown)
      else c.(stopFlag := true);
    if |joined.dataStore| > 0 && joined.saveFilename.Some? then
      joined.(files := joined.files[joined.saveFilename.value := DatasetFile(joined.dataStore)])
    else joined
  }

  /** Stops any scan, then closes encoder, motor and laser connections. */
  function Close(c: Controller): (c': Controller)
    ensures !c'.phase.Scanning?
    ensures |c'.calls| >= 3 && c'.calls[|c'.calls| - 3..] == [EncoderClose, MotorClose, LaserClose]
    ensures c'.stopFlag && c'.dataStore == c.dataStore
    ensures c.phase.Scanning? ==> c'.phase == Finished(Cancelled)
    ensures c'.files == StopScan(c).files
    ensures c'.calls == StopScan(c).calls + [EncoderClose, MotorClose, LaserClose]
    ensures c'.offset == c.offset && c'.saveFilename == c.saveFilename && c'.axisMax == c.axisMax
  {
    var s := StopScan(c);
    s.(calls := s.calls + [EncoderClose, MotorClose, LaserClose])
  }

  /** The controller invariant: a running worker has a file holding exactly
      the header and the store's rows and a counter below the threshold; a
      non-empty store has a file name; and every scan start (velocity move,
      encoder transmission) is matched by exactly one teardown, except the
      one scan that may be running now. */
  ghost predicate Valid(c: Controller)
  {
    && (c.phase.Scanning? ==>
          && c.phase.loop.stationary < StationaryThreshold
          && c.saveFilename.Some?
          && c.saveFilename.value in c.files
          && c.files[c.saveFilename.value] == IncrementalFile(c.dataStore))
    && (|c.dataStore| > 0 ==> c.saveFilename.Some?)
    && VelocityMoves(c.calls) == Count(c.calls, MotorStop) + (if c.phase.Scanning? then 1 else 0)
    && Count(c.calls, StartTransmission) == Count(c.calls, StopTransmission) + (if c.phase.Scanning? then 1 else 0)
  }

  /** The operations a caller (or the worker) can perform. */
  datatype Op =
    | FindOffsetOp(countAtZero: int)
    | InitOp(count: int)
    | ScanOp(req: ScanRequest, saveTo: Option<string>, stamp: string)
    | TickOp(obs: Observation)
    | StopOp
    | CloseOp

  /** The controller after one operation; a raising call leaves it as it was. */
  function Apply(c: Controller, op: Op): Controller
  {
    match op
    case FindOffsetOp(n) => FindOffset(c, n)
    case InitOp(n) => Init(c, n).0
    case ScanOp(req, saveTo, stamp) =>
      (match ScanAndCollect(c, req, saveTo, stamp)
       case Ok(c') => c'
       case Err(_) => c)
    case TickOp(o) => WorkerTick(c, o)
    case StopOp => StopScan(c)
    case CloseOp => Close(c)
  }

  function ApplyAll(c: Controller, ops: seq<Op>): Controller
    decreases |ops|
  {
    if |ops| == 0 then c else ApplyAll(Apply(c, ops[0]), ops[1..])
  }

  lemma StopScanPreservesValid(c: Controller)
    requires Valid(c)
    ensures Valid(StopScan(c))
  {
    if c.phase.Scanning? {
      AppendTeardown(c.calls);
    }
  }

  lemma WorkerTickPreservesValid(c: Controller, o: Observation)
    requires Valid(c)
    ensures Valid(WorkerTick(c, o))
  {
    if c.phase.Scanning? {
      match Step(Config(c), c.phase.loop, Tick(c.stopFlag, o.latest, o.lockin))
      case Halt(cause) =>
        var reset: seq<DeviceCall> := if cause == Raised(DeviceFault) then [ResetLockin] else [];
        assert forall i | 0 <= i < |reset| :: Neutral(reset[i]);
        AppendNeutral(c.calls, reset);
        AppendTeardown(c.calls + reset);
      case Emit(next, rec) =>
        AppendNeutral(c.calls, [ResetLockin]);
        IncrementalFileAppend(c.dataStore, rec);
    }
  }

  lemma FindOffsetPreservesValid(c: Controller, n: int)
    requires Valid(c)
    ensures Valid(FindOffset(c, n))
  {
    AppendNeutral(c.calls, [MoveAbsolute(0.0), GetCount]);
  }

  lemma InitPreservesValid(c: Controller, n: int)
    requires Valid(c)
    ensures Valid(Init(c, n).0)
  {
    var c1 := c.(calls := c.calls + [ConnectLaser, EncoderInit, MotorInit]);
    AppendNeutral(c.calls, [ConnectLaser, EncoderInit, MotorInit]);
    assert Valid(c1);
    FindOffsetPreservesValid(c1, n);
  }

  lemma ScanAndCollectPreservesValid(c: Controller, req: ScanRequest, saveTo: Option<string>, stamp: string)
    requires Valid(c)
    ensures ScanAndCollect(c, req, saveTo, stamp).Ok? ==> Valid(ScanAndCollect(c, req, saveTo, stamp).value)
  {
    if !c.phase.Scanning? {
      AppendSetup(c.calls, req);
    }
  }

  lemma ClosePreservesValid(c: Controller)
    requires Valid(c)
    ensures Valid(Close(c))
  {
    StopScanPreservesValid(c);
    AppendNeutral(StopScan(c).calls, [EncoderClose, MotorClose, LaserClose]);
  }

  /** Every operation keeps the controller invariant. */
  lemma ApplyPreservesValid(c: Controller, op: Op)
    requires Valid(c)
    ensures Valid(Apply(c, op))
  {
    match op
    case FindOffsetOp(n) =>
      assert Apply(c, op) == FindOffset(c, n);
      FindOffsetPreservesValid(c, n);
    case InitOp(n) =>
      assert Apply(c, op) == Init(c, n).0;
      InitPreservesValid(c, n);
    case ScanOp(req, saveTo, stamp) =>
      ScanAndCollectPreservesValid(c, req, saveTo, stamp);
    case TickOp(o) =>
      assert Apply(c, op) == WorkerTick(c, o);
      WorkerTickPreservesValid(c, o);
    case StopOp =>
      assert Apply(c, op) == StopScan(c);
      StopScanPreservesValid(c);
    case CloseOp =>
      assert Apply(c, op) == Close(c);
      ClosePreservesValid(c);
  }

  /** From a fresh controller, whatever operations are performed, the
      invariant holds: at most one scan is ever un-torn-down, and the running
      scan's file mirrors its store. */
  lemma {:induction false} ReachableIsValid(c: Controller, ops: seq<Op>)
    requires Valid(c)
    ensures Valid(ApplyAll(c, ops))
    decreases |ops|
  {
    if |ops| > 0 {
      ApplyPreservesValid(c, ops[0]);
      ReachableIsValid(Apply(c, ops[0]), ops[1..]);
    }
  }

  lemma NewIsValid(axisMax: real)
    ensures Valid(New(axisMax))
  {
  }

  /** Stopping twice leaves the same state as stopping once: the second
      call rewrites the same dataset to the same file. */
  lemma StopScanIdempotent(c: Controller)
    ensures StopScan(StopScan(c)) == StopScan(c)
  {
  }

  /** Because stopping joins the worker, a new scan can always start right
      after a stop, and it starts from an empty store. */
  lemma RestartAfterStop(c: Controller, req: ScanRequest, saveTo: Option<string>, stamp: string)
    ensures var r := ScanAndCollect(StopScan(c), req, saveTo, stamp);
      r.Ok? && r.value.dataStore == []
  {
  }

  /** The worker driven one observation at a time. */
  function Drive(c: Controller, obs: seq<Observation>): Controller
    decreases |obs|
  {
    if |obs| == 0 then c else Drive(WorkerTick(c, obs[0]), obs[1..])
  }

  /** The ticks the loop sees when the stop flag stays as it is. */
  function TicksOf(stopSet: bool, obs: seq<Observation>): (ts: seq<Tick>)
    ensures |ts| == |obs|
    ensures forall i | 0 <= i < |obs| :: ts[i] == Tick(stopSet, obs[i].latest, obs[i].lockin)
  {
    seq(|obs|, i requires 0 <= i < |obs| => Tick(stopSet, obs[i].latest, obs[i].lockin))
  }

  lemma {:induction false} DriveStopped(c: Controller, obs: seq<Observation>)
    requires !c.phase.Scanning?
    ensures Drive(c, obs) == c
    decreases |obs|
  {
    if |obs| > 0 {
      DriveStopped(WorkerTick(c, obs[0]), obs[1..]);
    }
  }

  /** Driving the controller's worker tick by tick stores exactly the records
      of the pure loop over the same observations, and leaves the worker
      running with the loop's state or exited with the loop's cause. */
  lemma {:induction false} DriveFollowsRun(c: Controller, obs: seq<Observation>)
    requires c.phase.Scanning?
    ensures var r := Run(Config(c), c.phase.loop, TicksOf(c.stopFlag, obs));
      var d := Drive(c, obs);
      && d.dataStore == c.dataStore + r.records
      && d.phase == (if r.exit.None? then Scanning(r.state, c.phase.request) else Finished(r.exit.value))
    decreases |obs|
  {
    var ticks := TicksOf(c.stopFlag, obs);
    if |obs| == 0 {
    } else {
      var c1 := WorkerTick(c, obs[0]);
      assert ticks[0] == Tick(c.stopFlag, obs[0].latest, obs[0].lockin);
      match Step(Config(c), c.phase.loop, ticks[0])
      case Halt(cause) =>
        assert c1.phase == Finished(cause) && c1.dataStore == c.dataStore;
        DriveStopped(c1, obs[1..]);
      case Emit(next, rec) =>
        assert c1.phase == Scanning(next, c.phase.request) && c1.dataStore == c.dataStore + [rec];
        assert TicksOf(c1.stopFlag, obs[1..]) == ticks[1..];
        assert Config(c1) == Config(c);
        DriveFollowsRun(c1, obs[1..]);
        assert c.dataStore + [rec] + Run(Config(c), next, ticks[1..]).records
            == c.dataStore + ([rec] + Run(Config(c), next, ticks[1..]).records);
    }
  }
}

=== FILE: wrappers.dfy ===
/** Optional values and results shared by every module. */
module Wrappers {

  /** A value that may be absent: Python's `None` versus a present value. */
  datatype Option<+T> = None | Some(value: T)

  /** The outcome of an operation that the source lets raise an exception. */
  datatype Result<+R, +E> = Ok(value: R) | Err(error: E)
}
